=== FILE: README.md ===
# Rideshare: session, booking form and server services

This project models, in Dafny, the logic of a small ride-booking application.

**The React client:**
- the session store (`AuthContext`) and the token plumbing of its two HTTP gateways;
- the booking form on the home page, which resolves the pickup and dropoff addresses, previews the route and submits the booking;
- the signup page's field rules and submit handler;
- the ride history page and the status badge of each ride card;
- the route table and its guard.

**The Spring server:**
- the authentication service and its controller;
- the ride service with its ordered query.

Every component is immutable data plus transition functions:
- **Remote calls.** Each one is an *issue* event and a later *completion* event that names the request by id. The booking form's calls can therefore complete in any order and interleave with edits, just as the page allows.
- **Oracles.** The geocoder, the route service, JWT decoding and signing, password hashing, credential checking and the clocks are parameters. They are not implementations.
- **Side effects.** Toasts and navigation are emitted effect values.

One module per source component:

| file | module | models |
|---|---|---|
| `wrappers.dfy` | `Wrappers` | `Option` and `Result` |
| `text.dfy` | `Text` | JavaScript and Java `trim`, ASCII lower-casing, string truthiness |
| `domain.dfy` | `Domain` | the client's types and the ride status |
| `gateway.dfy` | `Gateway` | the try/catch shape shared by the client's HTTP wrappers, and the two error-message fallback chains |
| `auth_api.dfy` | `AuthApi` | `setAuthToken`, `isAuthenticated`, the `signup`/`login` wrappers |
| `ride_api.dfy` | `RideApi` | the request interceptor, the `bookRide`/`getUserRides` wrappers |
| `session.dfy` | `Session` | `AuthProvider`: restore, `setAuth`, `logout` |
| `home.dfy` | `Home` | the booking form |
| `signup_page.dfy` | `SignupPage` | the field rules (including the email pattern) and `onSubmit` |
| `auth_service.dfy` | `AuthService` | `AuthService.signup`/`login` and the `AuthController` mapping |
| `ride_service.dfy` | `RideService` | `RideService.bookRide`/`getUserRides` and `findByUserOrderByDateTimeDesc` |
| `ride_card.dfy` | `RideCard` | `getStatusIcon`, `getStatusText` |
| `my_rides.dfy` | `MyRides` | the ride history page |
| `routing.dfy` | `Routing` | `App`'s routes, `AuthGuard`, browser history |
| `flows.dfy` | `Flows` | properties that cross the server, the gateways, the session and the pages |

## Behaviour as written

Some of this behaviour differs from what a careful design would promise. The model follows the code:
- **The route result is not checked against the locations.** It is installed whatever the locations are by then. Edits clear the route, but a route call that is still in flight comes back and sets it again:
  - `Home.EditDuringRouteCall` shows this;
  - `Home.RouteCallReachable` shows a state where it can happen.

  "A route is shown only with both locations" therefore holds only while no edit interleaves with a route call (`Home.RouteConsistentRun`). A late geocode result likewise sets a location for text the user has since emptied (`Home.StaleGeocodeAfterEdit`).
- **A failed geocode keeps the previous location.** A failed route call keeps the previous route.
- **The booking handler tests the raw texts, not the locations.** Whitespace-only text passes. The booking request carries the texts, not coordinates.
- **A failed booking always shows "Failed to book ride".** The server's message is never shown on the home page.
- **A booked ride is stored as `CONFIRMED`.** It is never `PENDING`.
- **Restore accepts a token until strictly after its `exp` second.** A missing `exp` or an `exp` of 0 never expires. After restore, expiry is never checked again.
- **Reloading a guarded page always lands on the login page.** The provider mounts signed out and restores the stored token only in an effect after the first render, and the guard has no loading gate, so on that render it already redirects to `/login` with replace (`Flows.ReloadGuardedLandsOnLogin`). A valid stored token signs the client in afterwards, but the user is left on the login page.
- **A second search while one is pending is prevented only by the shared disabled flag on the buttons.** The handler itself does not guard.

## Model

| member | source | states |
|---|---|---|
| Text.JsTrimEmptyIffBlank | project/src/pages/Home.tsx:53 | `!s.trim()` holds exactly when every character of `s` is ECMAScript white space or a line terminator |
| Text.TrimIdempotent | project/backend/src/main/java/com/example/rideshare/service/AuthService.java:46-47 | trimming an already trimmed string changes nothing |
| Text.AsciiLowerFixesLowered | project/backend/src/main/java/com/example/rideshare/service/AuthService.java:40 | a lower-cased string has no upper-case ASCII letter left, and lower-casing leaves a string alone exactly when it has none |
| Text.TrimKeepsAll | project/backend/src/main/java/com/example/rideshare/service/AuthService.java:40 | whatever holds of every character of a string holds of every character of its trim, which is a slice of it |
| Gateway.ErrorThenMessage | src/api/authApi.ts:23 | a truthy `error` field wins; with a falsy `error`, a truthy `message` field is the message; otherwise the fallback; it is never empty when the fallback is not |
| Gateway.MessageOnly | project/src/api/rideApi.ts:34 | the message is the truthy `message` field when there is one, otherwise the fallback; a truthy `error` field plays no part |
| Gateway.MessageOnlyIsChainWithoutError | project/src/api/rideApi.ts:34 | the ride gateway's message is what the auth gateway's `error || message || fallback` chain gives once the `error` field is dropped, so the two gateways differ only on bodies with a truthy `error` |
| Gateway.Settle | src/api/authApi.ts:17-28 | a reply is returned unchanged; an HTTP failure becomes an `Error` carrying the described message; any other thrown value is rethrown as it was |
| AuthApi.Bearer | src/api/authApi.ts:47 | the header starts with the 7 characters `Bearer ` and the rest is exactly the token, so the token can be read back from it |
| AuthApi.SetAuthToken | src/api/authApi.ts:45-53 | afterwards the header is present exactly when a token is stored and carries that token; a truthy token is stored and sent; `null` and `""` leave no header and no stored token |
| AuthApi.SetAuthTokenForgetsPrevious | src/api/authApi.ts:45-53 | the resulting browser state depends on the token argument alone |
| AuthApi.HeaderDeterminesToken | src/api/authApi.ts:47-48 | stripping `Bearer ` from a consistent header gives back the stored token |
| AuthApi.Signup | src/api/authApi.ts:17-28 | a success returns the body unchanged; an HTTP failure throws an `Error` with a non-empty message chosen error, then message, then "Failed to sign up"; anything else is rethrown |
| AuthApi.Login | src/api/authApi.ts:31-42 | the same as signup, with the fallback "Failed to login" |
| RideApi.Intercept | project/src/api/rideApi.ts:16-25 | with a truthy stored token, the request gains exactly the `Authorization: Bearer <token>` header and keeps every other header; otherwise the configuration is returned untouched |
| RideApi.BookRide | project/src/api/rideApi.ts:28-38 | a success returns the ride unchanged; an HTTP failure throws the `message` field or "Failed to book ride"; anything else is rethrown |
| RideApi.GetUserRides | project/src/api/rideApi.ts:41-51 | a success returns the list unchanged; an HTTP failure throws the `message` field or "Failed to fetch rides"; anything else is rethrown |
| RideApi.BookRideIgnoresErrorField | project/src/api/rideApi.ts:34 | the `error` field of a failed booking response never affects the message |
| Session.Mount | project/src/context/AuthContext.tsx:21-23 | the provider starts with no user, no token and not authenticated, and leaves browser storage alone |
| Session.Expired | project/src/context/AuthContext.tsx:35-36 | the test of `exp` in seconds against `Date.now()/1000` holds exactly when `exp` is truthy and `exp * 1000` is below the current millisecond count |
| Session.Logout | project/src/context/AuthContext.tsx:69-75 | logout leaves the signed-out state with no stored token and no header |
| Session.SetAuth | project/src/context/AuthContext.tsx:62-67 | the user is stored exactly as given, the token as given, the flag set; the browser stores the token and its header only when the token is non-empty |
| Session.Restore | project/src/context/AuthContext.tsx:25-60 | no truthy stored token: nothing changes; undecodable or expired token: logout; otherwise signed in with that token, its header, and the user rebuilt from the `id`, `name` and `sub` claims |
| Session.RestoreCoherent | project/src/context/AuthContext.tsx:25-60 | from any state with a truthy stored token, or with memory and storage already in agreement, restore leaves them in agreement and signs in exactly when the stored token decodes and has not expired |
| Session.RestoreAfterMount | project/src/context/AuthContext.tsx:21-60 | once the restore effect has run after a page load (no header set yet), the client is signed in exactly when a stored token decodes and is unexpired, with the user's email from `sub`; a rejected token is removed from storage; unless the stored token is the empty string, memory and storage then agree. The first render, before this, is signed out (`Flows.ReloadGuardedLandsOnLogin`) |
| Session.StoredExpiredTokenCountsUntilRestore | src/api/authApi.ts:56-59 | `isAuthenticated()` is true for any non-empty stored token, even an expired one, until the restore removes it |
| Session.RestoreAcceptsBoundaryExpiry | project/src/context/AuthContext.tsx:35-39 | a token whose `exp` is missing, 0, or such that `exp * 1000` is exactly the current millisecond is accepted |
| Session.LogoutIdempotent | project/src/context/AuthContext.tsx:69-75 | logging out twice equals logging out once, and leaves a coherent client |
| Session.SetAuthCoherent | project/src/context/AuthContext.tsx:62-67 | `setAuth` with a non-empty token leaves memory and storage in agreement |
| Session.SetAuthEmptyTokenDiverges | project/src/context/AuthContext.tsx:62-67 | `setAuth` with an empty token marks the session signed in while storage holds nothing |
| Session.SignedInUntilLogout | project/src/context/AuthContext.tsx:62-75 | with no logout in a run, the client ends signed in if it started signed in or received any `setAuth`, and the last `setAuth` decides the user and the token; no event reads the clock, so time alone never signs it out |
| Session.RunCoherent | project/src/context/AuthContext.tsx:62-75 | every sequence of `setAuth` (with non-empty tokens) and `logout` events keeps memory and storage in agreement |
| Session.RideRequestsCarrySessionToken | project/src/api/rideApi.ts:17-23 | a coherent signed-in client's ride requests carry `Bearer` and the session token; a signed-out one's are untouched |
| Home.Change | project/src/pages/Home.tsx:38-50 | editing one side sets its text and clears its location and the route; the other side, the loading flag and the calls in flight are unchanged |
| Home.Search | project/src/pages/Home.tsx:52-80 | a blank text changes nothing and calls nothing; otherwise exactly one geocode call for the current text goes out, loading starts, and nothing else changes |
| Home.RouteEffect | project/src/pages/Home.tsx:22-36 | a route call between the two current locations goes out exactly when both are present |
| Home.BookRide | project/src/pages/Home.tsx:82-93 | an empty raw text gives only a toast and no call; otherwise one booking call carrying the two texts goes out, loading starts, and nothing else in the form changes |
| Home.BookSettled | project/src/pages/Home.tsx:94-102 | a settled booking ends loading and touches nothing else in the form; it navigates to `/my-rides` exactly when the call replied; any failure shows only the generic message |
| Home.BlankSearchIsNoOp | project/src/pages/Home.tsx:52-80 | a search on empty or white-space text is a no-op, both through the handler and through a click |
| Home.GeocodeSuccessSetsOwnSide | project/src/pages/Home.tsx:55-58 | a geocode success sets only its own side's location, keeps texts and route, ends loading, and calls the route service exactly when both sides are then located |
| Home.GeocodeFailureKeepsLocation | project/src/pages/Home.tsx:59-64 | a geocode failure keeps both locations and the route, ends loading and raises the side's toast |
| Home.GeocodeSettled | project/src/pages/Home.tsx:55-64 | a settled geocode retires its call and ends loading, keeps both texts, the route and the other side's location; on failure its side keeps its location and the side's toast is the only effect; on success its side gets the result, and exactly when both sides are then located one route call between them is issued under the next id |
| Home.RouteCalledOnlyWithBothLocations | project/src/pages/Home.tsx:22-36 | a route call is only made by a geocode success and only for the two locations the form then holds |
| Home.RouteResultUnconditional | project/src/pages/Home.tsx:25-31 | a route success is installed whatever the form holds; a failure keeps the route and raises a toast |
| Home.RouteSettled | project/src/pages/Home.tsx:26-31 | a settled route call sets the route on success and keeps it on failure, changes nothing else but retiring the call, and raises the route toast exactly on failure |
| Home.BookGuardOnRawText | project/src/pages/Home.tsx:82-93 | with the button enabled, a booking call goes out exactly when both raw texts are non-empty, and it carries them |
| Home.BookOutcomes | project/src/pages/Home.tsx:94-102 | a booking success navigates to `/my-rides`; every failure shows the generic message; loading ends either way |
| Home.SearchDisablesSearches | project/src/pages/Home.tsx:127-156 | once a search goes out, neither search button makes a call until something settles |
| Home.RouteConsistentStep | project/src/pages/Home.tsx:22-80 | every event except an edit during a route call keeps "a shown route has both locations and five points" |
| Home.GeocodeKeepsRouteConsistent | project/src/pages/Home.tsx:22-80 | a geocode result, located or not, starts a route call only when both locations are then present |
| Home.NoNewRouteCall | project/src/pages/Home.tsx:52-93 | clicking search or book starts no route call and moves no location, so the route invariant survives |
| Home.RouteConsistentRun | project/src/pages/Home.tsx:22-80 | runs without an edit during a route call keep that invariant |
| Home.EditDuringRouteCall | project/src/pages/Home.tsx:22-50 | an edit during a route call, followed by the route's success, shows a route without both locations |
| Home.ResolveSide | project/src/pages/Home.tsx:38-80 | typing a non-blank address, searching and receiving a location sets exactly that side, ends loading, and leaves a route call in flight exactly when the other side is located too |
| Home.RouteCallReachable | project/src/pages/Home.tsx:22-80 | resolving both sides from the initial form leaves a route call in flight, so the state above is reachable |
| Home.StaleGeocodeAfterEdit | project/src/pages/Home.tsx:52-86 | a geocode result arriving after the text was emptied still sets the location: the book button is enabled while the handler refuses |
| SignupPage.IsEmailIffMatches | project/src/pages/Signup.tsx:92 | the matcher accepts exactly the strings that split as local part, `@`, domain, `.`, and a top-level domain of two or more ASCII letters |
| SignupPage.EmailExamples | project/src/pages/Signup.tsx:92 | `a@b.com` matches; a one-letter top-level domain or a missing local part does not |
| SignupPage.NameError | project/src/pages/Signup.tsx:71-77 | a name is valid exactly when non-empty and at least 2 long; empty gives "Name is required", short gives the length message |
| SignupPage.EmailError | project/src/pages/Signup.tsx:89-95 | an email is valid exactly when non-empty and matching the pattern; empty gives "Email is required", otherwise "Invalid email address" |
| SignupPage.PasswordError | project/src/pages/Signup.tsx:107-113 | a password is valid exactly when non-empty and at least 6 long, with the two messages |
| SignupPage.Submit | project/src/pages/Signup.tsx:18-25 | exactly when every field is valid, one signup call goes out with the data as entered, loading starts and the previous error is cleared; otherwise only the field errors change |
| SignupPage.Settle | project/src/pages/Signup.tsx:20-36 | success passes exactly the response's token and user to `setAuth` and navigates to `/`; a thrown `Error` shows its own message and any other thrown value "Failed to sign up"; failure keeps the session; loading ends either way |
| SignupPage.EmailNeedsAt | project/src/pages/Signup.tsx:89-95 | a non-empty email without `@` fails the pattern and shows "Invalid email address" |
| SignupPage.NonErrorThrowReported | project/src/pages/Signup.tsx:29-30 | a thrown non-`Error` value is reported as "Failed to sign up" |
| AuthService.Normalize | project/backend/src/main/java/com/example/rideshare/service/AuthService.java:40-47 | the key `toLowerCase().trim()` is never longer than the email |
| AuthService.NormalizeShape | project/backend/src/main/java/com/example/rideshare/service/AuthService.java:40-47 | a key has no upper-case ASCII letter and no white space or control character at either end |
| AuthService.NormalizeEmptyIffBlank | project/backend/src/main/java/com/example/rideshare/service/AuthService.java:33-47 | the key is empty exactly when the email is blank, so a request that passes the blank check never has an empty key |
| AuthService.NormalizeIdempotent | project/backend/src/main/java/com/example/rideshare/service/AuthService.java:40-47 | lower-casing then trimming a stored email changes nothing, so stored emails are their own keys |
| AuthService.Signup | project/backend/src/main/java/com/example/rideshare/service/AuthService.java:27-58 | failures are all `IllegalArgumentException`; failures carry a non-empty message; a success files the new user under the normalised email, keeps every other user as it was, and returns that user's id, trimmed name and email with a token for it |
| AuthService.SignupAddsOneUser | project/backend/src/main/java/com/example/rideshare/service/AuthService.java:39-51 | a successful signup grows the user table by exactly one entry, filed under the normalised email |
| AuthService.ValidationMessageBlank | project/backend/src/main/java/com/example/rideshare/service/AuthService.java:29-37 | the `trim().isEmpty()` checks agree with "every character is at most U+0020" |
| AuthService.SignupCheckOrder | project/backend/src/main/java/com/example/rideshare/service/AuthService.java:29-42 | the first failing check of blank name, blank email, short or missing password decides the message; a valid request fails exactly when its normalised email is taken |
| AuthService.SignupPreservesWellKeyed | project/backend/src/main/java/com/example/rideshare/service/AuthService.java:40-51 | a successful signup keeps every user filed under its own email with ids below the next one |
| AuthService.VariantEmailRejected | project/backend/src/main/java/com/example/rideshare/service/AuthService.java:40-42 | a valid signup of a fresh email succeeds, and afterwards any case or white-space variant of that email is refused with "Email already in use" |
| AuthService.ValidRequestAccepted | project/backend/src/main/java/com/example/rideshare/service/AuthService.java:29-42 | a request with a non-blank name, a non-blank email and a password of at least 6 characters is accepted exactly when its normalised email is not yet stored |
| AuthService.Login | project/backend/src/main/java/com/example/rideshare/service/AuthService.java:60-80 | login succeeds exactly when the authentication manager accepts and the normalised email is registered, returning that user; an accepted but unknown email fails with "User not found" |
| AuthService.LoginFindsSignedUpUser | project/backend/src/main/java/com/example/rideshare/service/AuthService.java:45-71 | a valid signup of a fresh email succeeds, and afterwards a login with any variant of that email that the authentication manager accepts returns the same user |
| AuthService.SignupEndpoint | project/backend/src/main/java/com/example/rideshare/controller/AuthController.java:20-27 | success is 200 with the service result; `IllegalArgumentException` is 400 with its message; any other exception escapes |
| AuthService.LoginEndpoint | project/backend/src/main/java/com/example/rideshare/controller/AuthController.java:29-36 | success is 200 with the service result; every exception is 400 with its message; nothing escapes |
| AuthService.SignupEndpointNeverEscapes | project/backend/src/main/java/com/example/rideshare/controller/AuthController.java:22-26 | the signup endpoint always answers 200 or 400 |
| RideService.BookRide | project/backend/src/main/java/com/example/rideshare/service/RideService.java:25-39 | an unknown email fails with "User not found" and stores nothing; otherwise exactly one ride is appended with the request's texts, the user as owner, the clock's time and status CONFIRMED, and its DTO returned |
| RideService.OwnedByCounts | project/backend/src/main/java/com/example/rideshare/repository/RideRepository.java:12 | the owner filter keeps every ride of the owner as often as stored and no other ride |
| RideService.SortNewestFirst | project/backend/src/main/java/com/example/rideshare/repository/RideRepository.java:12 | the ordering is a permutation of its input with `dateTime` non-increasing |
| RideService.UserRides | project/backend/src/main/java/com/example/rideshare/repository/RideRepository.java:12 | the query's result is ordered by `dateTime`, newest first |
| RideService.UserRidesSpec | project/backend/src/main/java/com/example/rideshare/repository/RideRepository.java:12 | the query returns exactly the owner's rides, each as often as stored, newest first |
| RideService.LatestLeads | project/backend/src/main/java/com/example/rideshare/repository/RideRepository.java:12 | in the newest-first order, a ride strictly later than every other listed ride comes first |
| RideService.GetUserRides | project/backend/src/main/java/com/example/rideshare/service/RideService.java:41-49 | an unknown email fails with "User not found"; otherwise one DTO per ride of the query, in its order |
| RideService.BookRideTouchesOnlyOwner | project/backend/src/main/java/com/example/rideshare/service/RideService.java:29-37 | a booking leaves every other user's rides as they were and adds exactly the booked ride to the user's |
| RideService.BookedRideListedFirst | project/backend/src/main/java/com/example/rideshare/service/RideService.java:25-49 | with a clock past every stored ride, the ride just booked heads the user's list |
| RideService.BookRideFreshId | project/backend/src/main/java/com/example/rideshare/model/Ride.java:19-21 | booking keeps ids below the next id, so the new ride's id is not any stored ride's |
| RideCard.StatusIcon | project/src/components/rides/RideCard.tsx:27-38 | green check exactly for COMPLETED, red cross exactly for CANCELLED, the clock otherwise |
| RideCard.StatusText | project/src/components/rides/RideCard.tsx:40-52 | each of COMPLETED, CANCELLED, CONFIRMED has its own label; "Pending" exactly for everything else |
| RideCard.LabelIsCapitalisedName | project/src/components/rides/RideCard.tsx:40-52 | the label of each status is its wire name with the letters after the first lower-cased |
| RideCard.LabelInjective | project/src/components/rides/RideCard.tsx:40-52 | distinct statuses get distinct labels |
| RideCard.IconNotInjective | project/src/components/rides/RideCard.tsx:33-36 | PENDING and CONFIRMED share the icon |
| RideCard.UnknownStatusLooksPending | project/src/components/rides/RideCard.tsx:27-52 | a status outside the four names gets the pending label and icon |
| MyRides.Mount | project/src/pages/MyRides.tsx:8-28 | the page starts with no rides, loading and no error, and requests the list once |
| MyRides.Settled | project/src/pages/MyRides.tsx:12-28 | a reply replaces the list; any failure keeps the list and sets the fixed error; loading ends either way |
| MyRides.ViewOf | project/src/pages/MyRides.tsx:34-57 | spinner exactly while loading, else the error if truthy, else "No rides yet" for an empty list, else one card per ride in order |
| MyRides.SettledView | project/src/pages/MyRides.tsx:12-57 | after the one fetch the page shows the error exactly on failure, "No rides yet" exactly for an empty reply, and the reply's rides otherwise |
| Routing.Guard | project/src/components/layout/AuthGuard.tsx:9-17 | signed in: the child; signed out: a replacing redirect to `/login`, whatever the child |
| Routing.Route | project/src/App.tsx:20-40 | `/login` and `/signup` render unguarded, `/` and `/my-rides` go through the guard, every other path redirects to `/` with replace |
| Routing.VisitLands | project/src/App.tsx:20-40 | for a given session flag, navigating to any path settles within two redirects and adds one history entry; with the flag false, everything but `/signup` ends at login; with it true, the known paths render as named and unknown paths end at home. On a page load the flag is the mount's false (`Flows.ReloadGuardedLandsOnLogin`) |
| Routing.PublicPagesIgnoreSession | project/src/App.tsx:21-22 | the login and signup pages render the same whether signed in or not |
| Flows.Deliver | project/backend/src/main/java/com/example/rideshare/controller/AuthController.java:23-48 | a 200 reaches the client as the body's token and user; a 400 reaches it as a body whose `error` field is the message |
| Flows.ServerRefusalShownVerbatim | project/backend/src/main/java/com/example/rideshare/controller/AuthController.java:24-26 | a signup the server refuses shows the server's own message on the signup page and leaves the session alone |
| Flows.AcceptedSignupSignsIn | project/src/pages/Signup.tsx:25-28 | an accepted signup signs the client in as the saved user, with its id, trimmed name, normalised email and token |
| Flows.UnknownLoginReported | project/backend/src/main/java/com/example/rideshare/service/AuthService.java:70-71 | an accepted login for an unregistered email reaches the client as the message "User not found" |
| Flows.ServerAcceptsEmailClientRefuses | project/backend/src/main/java/com/example/rideshare/service/AuthService.java:33-35 | the server accepts the email `x`, which the client's pattern refuses with "Invalid email address": the server checks only for blankness |
| Flows.LogoutLocksGuardedPages | project/src/components/layout/AuthGuard.tsx:12-14 | after logout, `/` and `/my-rides` end at the login page |
| Flows.ReloadGuardedLandsOnLogin | project/src/components/layout/AuthGuard.tsx:12-14 | opening `/` or `/my-rides` by URL lands on the login page whatever the browser has stored, even a valid token: the provider mounts signed out and the guard redirects on the first render, before the restore effect runs |

## Left out

- **The map services** (`project/src/api/mapApi.ts`) are oracles: the geocoder, and the floating-point route interpolation. The only fact kept is that a route has five points (`Home.RoutePoints`).
- **Foreign libraries** are parameters:
  - JWT decoding and generation, where a decode failure is `None`;
  - `PasswordEncoder`;
  - `AuthenticationManager`, which answers `None` when it accepts and the exception's message when it refuses;
  - `Date.now()` and `LocalDateTime.now()`.
- **react-hook-form internals** are reduced to the field rules: `required` fails only on the empty string, length and pattern rules apply only to non-empty values, and submission happens only when all fields pass.
- **The date and time formatting** of the ride card, and the conversion of the server's `LocalDateTime` to the client's string.
- **Presentation components** are not part of this model: Leaflet rendering, CSS, toasts' timing, `Header.tsx`, `Input.tsx` and `Button.tsx`. The book button's gate is taken from its `disabled` attribute; whatever `Button.tsx` does with its `isLoading` prop is not modelled.
- **`RideController.java` and JPA persistence** are not modelled. The authenticated principal's name is the `userEmail` argument, and the ride and user tables are a sequence and a map.
- **The login page** (`Login.tsx`) is not part of this model. Its gateway call `AuthApi.Login` is modelled.
- **Request DTO bean validation** is not part of this model. `SignupRequestDto` and `LoginRequestDto` are not available, and neither are the 400 responses their `@Valid` annotations could produce. Login request fields are taken as non-null.
- **The body Spring writes for an exception** that escapes the signup controller is a parameter of `Flows.Deliver`.
- **React Router's matching** is exact string equality on the path: no case folding, no trailing-slash handling. The nesting of all routes inside `AuthProvider` is reflected by `Routing.Route` receiving the same session flag for every path.
- **Each page is modelled on its own.** React scheduling, StrictMode and unmounting during a pending call are not modelled.
- **Claims missing from a token** (an undefined `id` or `name`) are not modelled. A decoded token always carries an `id`, a `name` and a `sub`.
- AuthService.Normalize and Text.AsciiLower: lower-case ASCII letters only. Java's `toLowerCase` uses the default locale and full Unicode case mapping, and these are not modelled, so two emails that differ only in a non-ASCII letter's case get different keys here.
- **SignupPage.NameError, SignupPage.PasswordError and AuthService.Signup:** count lengths in Unicode scalar values, not UTF-16 code units as JavaScript and Java do, so strings with characters outside the Basic Multilingual Plane differ.
- **SignupPage.EmailError:** applies the pattern to the value as the form library receives it. The browser's own sanitising of `type="email"` inputs is not modelled.
- SignupPage.Submit: sends the call whenever the form library's rules pass. The email input has `type="email"` (`project/src/pages/Signup.tsx:84`) inside a form without `noValidate` (line 62), so the browser's own e-mail check runs first. That check is not modelled. It blocks the submit for addresses the pattern accepts but the HTML e-mail rules refuse, such as `a@.b.com`, `a@b..com` or `a@-b.com`, where the model still sends the call.
- **RideService.UserRides:** fixes one order among rides with equal `dateTime`. The database leaves that order unspecified, so `RideService.UserRidesSpec` claims only the newest-first order and the multiset of rides.
- AuthService.SignupEndpointNeverEscapes: holds only because the store insert, the password encoder and token signing cannot fail in this model. In the service a failing repository save, JWT signing or transaction commit throws an exception other than `IllegalArgumentException`, and that exception escapes the controller.
- **Ids and timestamps** are unbounded integers. `Long` overflow is not modelled.

=== FILE: auth_api.dfy ===
/** The client's authentication gateway (src/api/authApi.ts): signup and login calls, and the
    token plumbing that keeps the `Authorization` header of the auth HTTP instance and the
    persisted `token` entry of local storage in step. */
module AuthApi {
  import opened Wrappers
  import opened Text
  import opened Domain
  import opened Gateway

  /** The browser state the gateway owns: local storage's `token` entry and the default
      `Authorization` header of the auth HTTP instance. */
  datatype Browser = Browser(storedToken: Option<string>, authHeader: Option<string>)

  /** The credential form of section 2.1 of RFC 6750: the word `Bearer`, one space, the token. */
  function Bearer(token: string): (h: string)
    ensures |h| == |token| + 7 && h[..7] == "Bearer " && h[7..] == token
  {
    "Bearer " + token
  }

  /** The header is present exactly when a token is stored, and then it carries that token. */
  predicate HeaderMatchesStorage(b: Browser) {
    && (b.authHeader.Some? <==> b.storedToken.Some?)
    && (b.storedToken.Some? ==> b.authHeader == Some(Bearer(b.storedToken.value)))
  }

  /** `isAuthenticated()`: a non-empty token is stored. Nothing about expiry is checked. */
  predicate IsAuthenticated(b: Browser) {
    Truthy(b.storedToken)
  }

  /** `setAuthToken(token)`: a truthy token is stored and put in the header; `null` or `""` removes both. */
  function SetAuthToken(b: Browser, token: Option<string>): (b': Browser)
    ensures HeaderMatchesStorage(b')
    ensures IsAuthenticated(b') <==> Truthy(token)
    ensures b'.storedToken.Some? ==> b'.storedToken == token
    ensures !Truthy(token) ==> b' == Browser(None, None)
  {
    if Truthy(token) then Browser(token, Some(Bearer(token.value))) else Browser(None, None)
  }

  /** `setAuthToken` forgets everything the browser held before: its outcome depends on the token alone. */
  lemma SetAuthTokenForgetsPrevious(b1: Browser, b2: Browser, token: Option<string>)
    ensures SetAuthToken(b1, token) == SetAuthToken(b2, token)
  {
  }

  /** The bearer header determines the stored token: the prefix can be stripped back off. */
  lemma HeaderDeterminesToken(b: Browser)
    requires HeaderMatchesStorage(b) && b.authHeader.Some?
    ensures b.authHeader.value[7..] == b.storedToken.value
  {
  }

  /** `signup(data)` with the server's reply: the body on success, otherwise an `Error` whose message is the
      response's `error` field, else its `message` field, else "Failed to sign up". */
  function Signup(reply: Reply<AuthResponse>): (r: Result<AuthResponse, Thrown>)
    ensures r.Ok? <==> reply.Replied?
    ensures r.Ok? ==> r.value == reply.data
    ensures reply.Failed? && reply.failure.NotHttp? ==> r == Err(reply.failure.thrown)
    ensures reply.Failed? && reply.failure.HttpFailure? ==>
              r.error.ErrorObject? && r.error.message != "" &&
              r.error.message == ErrorThenMessage(reply.failure.body, "Failed to sign up")
  {
    Settle(reply, body => ErrorThenMessage(body, "Failed to sign up"))
  }

  /** `login(credentials)`, the same as `Signup` with the fallback "Failed to login". */
  function Login(reply: Reply<AuthResponse>): (r: Result<AuthResponse, Thrown>)
    ensures r.Ok? <==> reply.Replied?
    ensures r.Ok? ==> r.value == reply.data
    ensures reply.Failed? && reply.failure.NotHttp? ==> r == Err(reply.failure.thrown)
    ensures reply.Failed? && reply.failure.HttpFailure? ==>
              r.error.ErrorObject? && r.error.message != "" &&
              r.error.message == ErrorThenMessage(reply.failure.body, "Failed to login")
  {
    Settle(reply, body => ErrorThenMessage(body, "Failed to login"))
  }
}

=== FILE: auth_service.dfy ===
/** The server's authentication service (AuthService.java) over a user store keyed by normalised email,
    and the controller (AuthController.java) that turns its exceptions into HTTP responses. Password
    hashing, token signing and credential checking are parameters. */
module AuthService {
  import opened Wrappers
  import opened Text

  /** A signup request as deserialised: any field may be null. */
  datatype SignupRequest = SignupRequest(name: Option<string>, email: Option<string>, password: Option<string>)

  datatype LoginRequest = LoginRequest(email: string, password: string)

  /** A saved user. `passwordHash` is whatever the password encoder produced. */
  datatype UserEntity = UserEntity(id: int, name: string, email: string, passwordHash: string)

  /** The user table: users by email, and the identity the next insert receives. */
  datatype UserStore = UserStore(byEmail: map<string, UserEntity>, nextId: int)

  /** `AuthResponseDto.UserDto` and `AuthResponseDto`. */
  datatype UserDto = UserDto(id: int, name: string, email: string)
  datatype AuthResponseDto = AuthResponseDto(token: string, user: UserDto)

  /** The exceptions the services throw, with their messages. */
  datatype ServiceError =
    | IllegalArgument(message: string)
    | UsernameNotFound(message: string)
    | AuthenticationFailed(message: string)

  /** A successful signup: the store after the insert and the response. */
  datatype SignedUp = SignedUp(store: UserStore, response: AuthResponseDto)

  /** `email.toLowerCase().trim()`: the key is never longer than the email; its shape is `NormalizeShape`. */
  function Normalize(email: string): (key: string)
    ensures |key| <= |email|
  {
    JavaTrim(AsciiLower(email))
  }

  /** A key has no upper-case ASCII letter and no white space or control character at either end. */
  lemma NormalizeShape(email: string)
    ensures AsciiLower(Normalize(email)) == Normalize(email)
    ensures var key := Normalize(email);
            key == [] || (!IsJavaSpace(key[0]) && !IsJavaSpace(key[|key| - 1]))
  {
    var low := AsciiLower(email);
    AsciiLowerFixesLowered(email);
    TrimKeepsAll(low, IsJavaSpace, IsLowered);
    AsciiLowerFixesLowered(Normalize(email));
  }

  /** The key is empty exactly when the email is blank: lower-casing neither makes nor unmakes white space. */
  lemma NormalizeEmptyIffBlank(email: string)
    ensures Normalize(email) == [] <==> IsJavaBlank(email)
  {
    var low := AsciiLower(email);
    TrimEmptyIffAll(low, IsJavaSpace);
    forall i | 0 <= i < |email|
      ensures IsJavaSpace(low[i]) <==> IsJavaSpace(email[i])
    {
      assert low[i] == LowerChar(email[i]);
    }
  }

  /** Normalising twice is normalising once, so a stored email is its own key. */
  lemma NormalizeIdempotent(email: string)
    ensures Normalize(Normalize(email)) == Normalize(email)
  {
    var low := AsciiLower(email);
    var t := JavaTrim(low);
    AsciiLowerFixesLowered(email);
    TrimKeepsAll(low, IsJavaSpace, IsLowered);
    AsciiLowerFixesLowered(t);
    TrimIdempotent(low, IsJavaSpace);
  }

  /** `UserDto.fromUser`. */
  function FromUser(u: UserEntity): (d: UserDto)
    ensures d.id == u.id && d.name == u.name && d.email == u.email
  {
    UserDto(u.id, u.name, u.email)
  }

  /** Every user is filed under its own email, and every id is below the next one. */
  predicate WellKeyed(store: UserStore) {
    && (forall k :: k in store.byEmail ==> store.byEmail[k].email == k)
    && (forall k :: k in store.byEmail ==> store.byEmail[k].id < store.nextId)
  }

  /** `signup`: checks in order blank name, blank email, short or missing password, email taken; the first
      failing check throws. Otherwise the user is saved with trimmed name, normalised email and encoded
      password, and a token is issued for the saved user. */
  function Signup(store: UserStore, req: SignupRequest,
                  encode: string -> string, generateToken: UserEntity -> string): (r: Result<SignedUp, ServiceError>)
    ensures r.Err? ==> r.error.IllegalArgument? && r.error.message != ""
    ensures r.Ok? ==>
              && req.name.Some? && req.email.Some? && req.password.Some?
              && var key := Normalize(req.email.value);
              && key !in store.byEmail
              && key in r.value.store.byEmail
              && (forall k :: k in store.byEmail ==> k in r.value.store.byEmail && r.value.store.byEmail[k] == store.byEmail[k])
              && r.value.store.byEmail[key] == UserEntity(store.nextId, JavaTrim(req.name.value), key, encode(req.password.value))
              && r.value.response.user == FromUser(r.value.store.byEmail[key])
              && r.value.response.token == generateToken(r.value.store.byEmail[key])
  {
    if req.name.None? || IsJavaBlank(req.name.value) then Err(IllegalArgument("Name is required"))
    else if req.email.None? || IsJavaBlank(req.email.value) then Err(IllegalArgument("Email is required"))
    else if req.password.None? || |req.password.value| < 6 then Err(IllegalArgument("Password must be at least 6 characters"))
    else
      var key := Normalize(req.email.value);
      if key in store.byEmail then Err(IllegalArgument("Email already in use"))
      else
        var user := UserEntity(store.nextId, JavaTrim(req.name.value), key, encode(req.password.value));
        var saved := UserStore(store.byEmail[key := user], store.nextId + 1);
        Ok(SignedUp(saved, AuthResponseDto(generateToken(user), FromUser(user))))
  }

  /** A successful signup adds exactly one user: the key set grows by the new key alone. */
  lemma SignupAddsOneUser(store: UserStore, req: SignupRequest, encode: string -> string, generateToken: UserEntity -> string)
    requires Signup(store, req, encode, generateToken).Ok?
    ensures var m := Signup(store, req, encode, generateToken).value.store.byEmail;
            && m.Keys == store.byEmail.Keys + {Normalize(req.email.value)}
            && |m| == |store.byEmail| + 1
  {
    var key := Normalize(req.email.value);
    var user := UserEntity(store.nextId, JavaTrim(req.name.value), key, encode(req.password.value));
    assert Signup(store, req, encode, generateToken).value.store.byEmail == store.byEmail[key := user];
    InsertNewKey(store.byEmail, key, user);
  }

  /** Inserting under a fresh key adds that key and nothing else. */
  lemma InsertNewKey<K, V>(m: map<K, V>, k: K, v: V)
    requires k !in m
    ensures m[k := v].Keys == m.Keys + {k}
    ensures |m[k := v]| == |m| + 1
  {
    assert m[k := v].Keys == m.Keys + {k};
  }

  /** The message `Signup` fails with, as a function of the request alone (the first failing check). */
  function ValidationMessage(req: SignupRequest): Option<string> {
    if req.name.None? || JavaTrim(req.name.value) == "" then Some("Name is required")
    else if req.email.None? || JavaTrim(req.email.value) == "" then Some("Email is required")
    else if req.password.None? || |req.password.value| < 6 then Some("Password must be at least 6 characters")
    else None
  }

  /** `trim().isEmpty()` is the blank test `Signup` uses. */
  lemma ValidationMessageBlank(req: SignupRequest)
    ensures ValidationMessage(req) ==
              if req.name.None? || IsJavaBlank(req.name.value) then Some("Name is required")
              else if req.email.None? || IsJavaBlank(req.email.value) then Some("Email is required")
              else if req.password.None? || |req.password.value| < 6 then Some("Password must be at least 6 characters")
              else None
  {
    if req.name.Some? {
      TrimEmptyIffAll(req.name.value, IsJavaSpace);
    }
    if req.email.Some? {
      TrimEmptyIffAll(req.email.value, IsJavaSpace);
    }
  }

  /** Validation runs before the duplicate check, stated against `trim().isEmpty()`; it fails exactly as
      `ValidationMessage` says, and a valid request fails only on a taken email. */
  lemma SignupCheckOrder(store: UserStore, req: SignupRequest, encode: string -> string, generateToken: UserEntity -> string)
    ensures var r := Signup(store, req, encode, generateToken);
            && (ValidationMessage(req).Some? ==> r == Err(IllegalArgument(ValidationMessage(req).value)))
            && (ValidationMessage(req).None? ==>
                  (r.Err? <==> Normalize(req.email.value) in store.byEmail)
                  && (r.Err? ==> r.error == IllegalArgument("Email already in use")))
  {
    ValidationMessageBlank(req);
  }

  /** Filing a new user under its own email with the next id keeps the store well keyed. */
  lemma InsertKeepsWellKeyed(store: UserStore, key: string, user: UserEntity)
    requires WellKeyed(store)
    requires user.email == key && user.id == store.nextId
    ensures WellKeyed(UserStore(store.byEmail[key := user], store.nextId + 1))
  {
  }

  /** A successful signup keeps every user filed under its own email with an id below the next one, and
      advances the next id by one. */
  lemma SignupPreservesWellKeyed(store: UserStore, req: SignupRequest, encode: string -> string, generateToken: UserEntity -> string)
    requires WellKeyed(store)
    ensures var r := Signup(store, req, encode, generateToken);
            r.Ok? ==> WellKeyed(r.value.store) && r.value.store.nextId == store.nextId + 1
  {
    var r := Signup(store, req, encode, generateToken);
    if r.Ok? {
      var key := Normalize(req.email.value);
      var user := UserEntity(store.nextId, JavaTrim(req.name.value), key, encode(req.password.value));
      assert r.value.store == UserStore(store.byEmail[key := user], store.nextId + 1);
      InsertKeepsWellKeyed(store, key, user);
    }
  }

  /** Once an email is registered, every variant with the same normalised form is refused with "Email already
      in use", whatever its case or surrounding white space. */
  lemma VariantEmailRejected(store: UserStore, first: SignupRequest, again: SignupRequest,
                             encode: string -> string, generateToken: UserEntity -> string)
    requires ValidationMessage(first).None? && Normalize(first.email.value) !in store.byEmail
    requires ValidationMessage(again).None?
    requires Normalize(again.email.value) == Normalize(first.email.value)
    ensures && Signup(store, first, encode, generateToken).Ok?
            && Signup(Signup(store, first, encode, generateToken).value.store, again, encode, generateToken)
                 == Err(IllegalArgument("Email already in use"))
  {
    SignupCheckOrder(store, first, encode, generateToken);
    SignupCheckOrder(Signup(store, first, encode, generateToken).value.store, again, encode, generateToken);
  }

  /** The server does no format check: a request with a non-blank name, a non-blank email and a password of
      six or more characters is accepted exactly when its normalised email is not registered. */
  lemma ValidRequestAccepted(store: UserStore, req: SignupRequest, encode: string -> string, generateToken: UserEntity -> string)
    requires req.name.Some? && !IsJavaBlank(req.name.value)
    requires req.email.Some? && !IsJavaBlank(req.email.value)
    requires req.password.Some? && |req.password.value| >= 6
    ensures Signup(store, req, encode, generateToken).Ok? <==> Normalize(req.email.value) !in store.byEmail
  {
  }

  /** A single lower-case letter is its own key. */
  lemma NormalizeSingleLetter(c: char)
    requires 'a' <= c <= 'z'
    ensures Normalize([c]) == [c]
  {
    assert AsciiLower([c]) == [c];
    assert TrimStart([c], IsJavaSpace) == [c];
    assert TrimEnd([c], IsJavaSpace) == [c];
  }

  /** `login`: the credentials are checked and the user looked up with the same normalised email. The
      authentication manager answers None when it accepts and the exception's message when it refuses. */
  function Login(store: UserStore, req: LoginRequest,
                 authenticate: (string, string) -> Option<string>, generateToken: UserEntity -> string): (r: Result<AuthResponseDto, ServiceError>)
    ensures r.Ok? <==> authenticate(Normalize(req.email), req.password).None? && Normalize(req.email) in store.byEmail
    ensures r.Ok? ==> r.value.user == FromUser(store.byEmail[Normalize(req.email)])
    ensures authenticate(Normalize(req.email), req.password).None? && Normalize(req.email) !in store.byEmail ==>
              r == Err(UsernameNotFound("User not found"))
  {
    var key := Normalize(req.email);
    match authenticate(key, req.password)
    case Some(message) => Err(AuthenticationFailed(message))
    case None =>
      if key in store.byEmail then
        var user := store.byEmail[key];
        Ok(AuthResponseDto(generateToken(user), FromUser(user)))
      else Err(UsernameNotFound("User not found"))
  }

  /** A user who signed up can log in with any variant of the email, given the authentication manager accepts. */
  lemma LoginFindsSignedUpUser(store: UserStore, req: SignupRequest, login: LoginRequest,
                               encode: string -> string, authenticate: (string, string) -> Option<string>,
                               generateToken: UserEntity -> string)
    requires ValidationMessage(req).None? && Normalize(req.email.value) !in store.byEmail
    requires Normalize(login.email) == Normalize(req.email.value)
    requires authenticate(Normalize(login.email), login.password).None?
    ensures && Signup(store, req, encode, generateToken).Ok?
            && var s := Signup(store, req, encode, generateToken).value;
            && Login(s.store, login, authenticate, generateToken).Ok?
            && Login(s.store, login, authenticate, generateToken).value.user == s.response.user
  {
    SignupCheckOrder(store, req, encode, generateToken);
  }

  // ---------------------------------------------------------------------------------------------
  // AuthController

  /** A response of the controller: 200 with a body, 400 with `{error: message}`, or an exception that
      escapes the handler. */
  datatype Response<+T> = Ok200(body: T) | BadRequest400(error: string) | Escaped(cause: ServiceError)

  /** `POST /api/auth/signup`: only `IllegalArgumentException` is caught. */
  function SignupEndpoint(r: Result<SignedUp, ServiceError>): (resp: Response<AuthResponseDto>)
    ensures r.Ok? <==> resp.Ok200?
    ensures r.Ok? ==> resp.body == r.value.response
    ensures resp.BadRequest400? <==> r.Err? && r.error.IllegalArgument?
    ensures resp.BadRequest400? ==> resp.error == r.error.message
    ensures resp.Escaped? ==> resp.cause == r.error
  {
    match r
    case Ok(s) => Ok200(s.response)
    case Err(IllegalArgument(message)) => BadRequest400(message)
    case Err(e) => Escaped(e)
  }

  /** `POST /api/auth/login`: every exception is caught. */
  function LoginEndpoint(r: Result<AuthResponseDto, ServiceError>): (resp: Response<AuthResponseDto>)
    ensures !resp.Escaped?
    ensures r.Ok? <==> resp.Ok200?
    ensures r.Ok? ==> resp.body == r.value
    ensures r.Err? ==> resp == BadRequest400(r.error.message)
  {
    match r
    case Ok(dto) => Ok200(dto)
    case Err(e) => BadRequest400(e.message)
  }

  /** Signup only throws `IllegalArgumentException`, so its endpoint always answers 200 or 400. */
  lemma SignupEndpointNeverEscapes(store: UserStore, req: SignupRequest, encode: string -> string, generateToken: UserEntity -> string)
    ensures !SignupEndpoint(Signup(store, req, encode, generateToken)).Escaped?
  {
  }
}

=== FILE: domain.dfy ===
/** The client's data types (project/src/types/index.ts) and the ride status shared with the server. */
module Domain {

  /** Lifecycle of a ride; the server stores it by name (`EnumType.STRING`) and the client receives that name. */
  datatype RideStatus = Pending | Confirmed | Completed | Cancelled

  /** The name a status has on the wire and in the client's `RideStatus` enum. */
  function WireName(s: RideStatus): string {
    match s
    case Pending => "PENDING"
    case Confirmed => "CONFIRMED"
    case Completed => "COMPLETED"
    case Cancelled => "CANCELLED"
  }

  /** A map coordinate. Coordinates are only stored and compared, never computed with. */
  datatype Location = Location(lat: real, lng: real)

  /** The signed-in user as the client knows it. */
  datatype User = User(id: int, name: string, email: string)

  /** What signup and login answer with. */
  datatype AuthResponse = AuthResponse(token: string, user: User)

  /** The fields of the signup form. */
  datatype SignupData = SignupData(name: string, email: string, password: string)

  /** The booking request body: free-text addresses, not coordinates. */
  datatype RideBookingData = RideBookingData(pickupLocation: string, dropLocation: string)

  /** A ride as the client receives it. `status` is whatever string the server sent, which need not be
      one of the four enum names. */
  datatype Ride = Ride(id: int, pickupLocation: string, dropLocation: string, dateTime: string, status: string)
}

=== FILE: flows.dfy ===
/** How the layers meet: the server's responses as the client's gateway receives them, and properties that
    hold across the server, the gateway, the session and the pages. */
module Flows {
  import opened Wrappers
  import opened Domain
  import opened Gateway
  import AuthApi
  import Session
  import SignupPage
  import AuthService
  import Routing
  import Text

  /** The client's view of the server's user. */
  function ClientUser(u: AuthService.UserDto): User {
    User(u.id, u.name, u.email)
  }

  /** A controller response as the gateway receives it. A 400 carries the JSON body `{error: message}`; an
      exception that escapes the controller reaches the client as an error response whose body the
      framework writes, given here as `errorPage`. */
  function Deliver(resp: AuthService.Response<AuthService.AuthResponseDto>, errorPage: Option<ErrorBody>)
    : (reply: Reply<AuthResponse>)
    ensures resp.Ok200? <==> reply.Replied?
    ensures resp.Ok200? ==> reply.data == AuthResponse(resp.body.token, ClientUser(resp.body.user))
    ensures resp.BadRequest400? ==> reply == Failed(HttpFailure(Some(ErrorBody(Some(resp.error), None))))
  {
    match resp
    case Ok200(dto) => Replied(AuthResponse(dto.token, ClientUser(dto.user)))
    case BadRequest400(e) => Failed(HttpFailure(Some(ErrorBody(Some(e), None))))
    case Escaped(_) => Failed(HttpFailure(errorPage))
  }

  /** A signup the server refuses shows the server's own message on the signup page, and the session stays
      as it was. */
  lemma ServerRefusalShownVerbatim(store: AuthService.UserStore, req: AuthService.SignupRequest,
                                   encode: string -> string, generateToken: AuthService.UserEntity -> string,
                                   errorPage: Option<ErrorBody>, p: SignupPage.Page, c: Session.Client)
    requires AuthService.Signup(store, req, encode, generateToken).Err?
    ensures var r := AuthService.Signup(store, req, encode, generateToken);
            var s := SignupPage.Settle(p, c, Deliver(AuthService.SignupEndpoint(r), errorPage));
            && s.page.error == Some(r.error.message)
            && s.client == c
  {
    var r := AuthService.Signup(store, req, encode, generateToken);
    var m := r.error.message;
    assert m != "";
    var body := Some(ErrorBody(Some(m), None));
    assert AuthService.SignupEndpoint(r) == AuthService.BadRequest400(m);
    assert Deliver(AuthService.SignupEndpoint(r), errorPage) == Failed(HttpFailure(body));
    assert ErrorThenMessage(body, "Failed to sign up") == m;
  }

  /** A signup the server accepts signs the client in as the saved user: its id, trimmed name and normalised
      email, with the issued token stored and sent on later requests. */
  lemma AcceptedSignupSignsIn(store: AuthService.UserStore, req: AuthService.SignupRequest,
                              encode: string -> string, generateToken: AuthService.UserEntity -> string,
                              errorPage: Option<ErrorBody>, p: SignupPage.Page, c: Session.Client)
    requires AuthService.Signup(store, req, encode, generateToken).Ok?
    ensures var r := AuthService.Signup(store, req, encode, generateToken).value;
            var key := AuthService.Normalize(req.email.value);
            var saved := r.store.byEmail[key];
            var s := SignupPage.Settle(p, c, Deliver(AuthService.SignupEndpoint(AuthService.Signup(store, req, encode, generateToken)), errorPage));
            && s.client.session.isAuthenticated
            && s.client.session.user == Some(User(saved.id, saved.name, key))
            && s.client.session.token == Some(generateToken(saved))
            && (generateToken(saved) != "" ==> Session.Coherent(s.client))
  {
  }

  /** A login with an email nobody registered reaches the client as the message "User not found", provided
      the authentication manager lets it through to the lookup. */
  lemma UnknownLoginReported(store: AuthService.UserStore, req: AuthService.LoginRequest,
                             authenticate: (string, string) -> Option<string>, generateToken: AuthService.UserEntity -> string,
                             errorPage: Option<ErrorBody>)
    requires authenticate(AuthService.Normalize(req.email), req.password).None?
    requires AuthService.Normalize(req.email) !in store.byEmail
    ensures AuthApi.Login(Deliver(AuthService.LoginEndpoint(AuthService.Login(store, req, authenticate, generateToken)), errorPage))
              == Err(ErrorObject("User not found"))
  {
  }

  /** The server checks an email only for blankness: "x", which the signup page's pattern refuses, is
      accepted by the server with a valid name and password whenever it is not yet registered. */
  lemma ServerAcceptsEmailClientRefuses(store: AuthService.UserStore, encode: string -> string,
                                        generateToken: AuthService.UserEntity -> string)
    requires "x" !in store.byEmail
    ensures SignupPage.EmailError("x") == Some("Invalid email address")
    ensures AuthService.Signup(store, AuthService.SignupRequest(Some("Al"), Some("x"), Some("secret")), encode, generateToken).Ok?
  {
    assert !Text.IsJavaBlank("Al") by { assert !Text.IsJavaSpace("Al"[0]); }
    assert !Text.IsJavaBlank("x") by { assert !Text.IsJavaSpace("x"[0]); }
    AuthService.NormalizeSingleLetter('x');
    AuthService.ValidRequestAccepted(store, AuthService.SignupRequest(Some("Al"), Some("x"), Some("secret")), encode, generateToken);
    SignupPage.EmailNeedsAt("x");
  }

  /** After logging out, every guarded page sends the user to the login page. */
  lemma LogoutLocksGuardedPages(c: Session.Client, h: Routing.History, path: string)
    requires h.Valid()
    requires path == "/" || path == "/my-rides"
    ensures Routing.Visit(h, path, Session.Logout(c).session.isAuthenticated).value.1 == Routing.LoginScreen
  {
    Routing.VisitLands(h, path, false);
  }

  /** Opening a guarded page by URL is a page load: the provider mounts signed out and restores the stored
      token only in its effect, after the first render, and on that render the guard has already
      redirected to the login page. So, whatever the browser has stored, even a valid token, the visit
      lands on the login page. */
  lemma ReloadGuardedLandsOnLogin(b: AuthApi.Browser, h: Routing.History, path: string)
    requires h.Valid()
    requires path == "/" || path == "/my-rides"
    ensures Routing.Visit(h, path, Session.Mount(b).session.isAuthenticated).value.1 == Routing.LoginScreen
  {
    Routing.VisitLands(h, path, Session.Mount(b).session.isAuthenticated);
  }
}

=== FILE: gateway.dfy ===
/** How the client's HTTP wrappers (authApi.ts, rideApi.ts) turn an axios call into a value or a thrown
    error. The transport itself is an oracle: a call either replies with a body or fails. */
module Gateway {
  import opened Wrappers
  import opened Text

  /** The `response.data` of an HTTP error, as far as the client reads it: its `error` and `message` fields. */
  datatype ErrorBody = ErrorBody(error: Option<string>, message: Option<string>)

  /** A value a promise rejects with: an `Error` instance (with its message) or anything else. */
  datatype Thrown = ErrorObject(message: string) | OtherValue

  /** Why a call failed: an axios error, whose response (and its data) may be missing, or anything else. */
  datatype Failure = HttpFailure(body: Option<ErrorBody>) | NotHttp(thrown: Thrown)

  /** The oracle's answer to one remote call. */
  datatype Reply<+T> = Replied(data: T) | Failed(failure: Failure)

  /** `data?.error || data?.message || fallback`. */
  function ErrorThenMessage(body: Option<ErrorBody>, fallback: string): (m: string)
    ensures fallback != "" ==> m != ""
    ensures body.Some? && Truthy(body.value.error) ==> m == body.value.error.value
    ensures body.Some? && !Truthy(body.value.error) && Truthy(body.value.message) ==> m == body.value.message.value
    ensures m == fallback || (body.Some? && (Some(m) == body.value.error || Some(m) == body.value.message))
    ensures m == fallback <== body.None? || (!Truthy(body.value.error) && !Truthy(body.value.message))
  {
    if body.Some? && Truthy(body.value.error) then body.value.error.value
    else if body.Some? && Truthy(body.value.message) then body.value.message.value
    else fallback
  }

  /** `data?.message || fallback`. */
  function MessageOnly(body: Option<ErrorBody>, fallback: string): (m: string)
    ensures fallback != "" ==> m != ""
    ensures body.Some? && Truthy(body.value.message) ==> m == body.value.message.value
    ensures m == fallback <== body.None? || !Truthy(body.value.message)
  {
    if body.Some? && Truthy(body.value.message) then body.value.message.value else fallback
  }

  /** `data?.message || fallback` is the longer chain with the `error` field taken away: it is what
      `ErrorThenMessage` says of a body whose `error` is absent. */
  lemma MessageOnlyIsChainWithoutError(body: Option<ErrorBody>, fallback: string)
    ensures MessageOnly(body, fallback)
         == ErrorThenMessage(if body.Some? then Some(body.value.(error := None)) else None, fallback)
  {
  }

  /** The `try { return response.data } catch` shape every wrapper shares: a reply is returned unchanged,
      an axios error becomes `new Error(describe(data))`, anything else is rethrown as it is. */
  function Settle<T>(reply: Reply<T>, describe: Option<ErrorBody> -> string): (r: Result<T, Thrown>)
    ensures r.Ok? <==> reply.Replied?
    ensures r.Ok? ==> r.value == reply.data
    ensures reply.Failed? && reply.failure.NotHttp? ==> r == Err(reply.failure.thrown)
    ensures reply.Failed? && reply.failure.HttpFailure? ==> r == Err(ErrorObject(describe(reply.failure.body)))
  {
    match reply
    case Replied(data) => Ok(data)
    case Failed(HttpFailure(body)) => Err(ErrorObject(describe(body)))
    case Failed(NotHttp(thrown)) => Err(thrown)
  }
}

=== FILE: home.dfy ===
/** The booking form (project/src/pages/Home.tsx) as a state machine. Every asynchronous call is split
    into the event that issues it, which records the request under a fresh id, and the event that
    completes it, which names that id. Completions may arrive in any order and interleave with edits,
    which is how the form behaves under React: nothing checks whether a result is still current. */
module Home {
  import opened Wrappers
  import opened Text
  import opened Domain
  import opened Gateway
  import RideApi

  datatype Side = Pickup | Dropoff {
    function Other(): Side {
      if this == Pickup then Dropoff else Pickup
    }
  }

  /** A remote call the form has issued and not yet seen settle. */
  datatype Request =
    | Geocode(side: Side, address: string)
    | RouteBetween(from: Location, to: Location)
    | Book(data: RideBookingData)

  /** The component's state, plus the calls in flight and the next request id. */
  datatype Form = Form(
    pickupValue: string,
    dropoffValue: string,
    pickupLocation: Option<Location>,
    dropoffLocation: Option<Location>,
    route: Option<seq<Location>>,
    isLoading: bool,
    inflight: map<nat, Request>,
    nextRequest: nat)
  {
    function Value(side: Side): string {
      if side == Pickup then pickupValue else dropoffValue
    }

    function LocationOf(side: Side): Option<Location> {
      if side == Pickup then pickupLocation else dropoffLocation
    }

    predicate BothLocated() {
      pickupLocation.Some? && dropoffLocation.Some?
    }
  }

  /** The first render: empty texts, no locations, no route, not loading, nothing in flight. */
  const Initial: Form := Form("", "", None, None, None, false, map[], 0)

  /** What a step does besides changing state: toasts, navigation, and the remote calls it makes. */
  datatype Effect =
    | ErrorToast(message: string)
    | SuccessToast(message: string)
    | NavigateTo(path: string)
    | Called(request: Request)

  datatype Step = Step(form: Form, effects: seq<Effect>)

  /** The number of points the route service returns (project/src/api/mapApi.ts:32). */
  const RoutePoints: nat := 5

  /** Records `r` as in flight under the next id. */
  function Issue(f: Form, r: Request): (g: Form)
    ensures g.inflight == f.inflight[f.nextRequest := r] && g.nextRequest == f.nextRequest + 1
    ensures g.(inflight := f.inflight, nextRequest := f.nextRequest) == f
  {
    f.(inflight := f.inflight[f.nextRequest := r], nextRequest := f.nextRequest + 1)
  }

  function WithValue(f: Form, side: Side, v: string): Form {
    if side == Pickup then f.(pickupValue := v) else f.(dropoffValue := v)
  }

  function WithLocation(f: Form, side: Side, loc: Option<Location>): Form {
    if side == Pickup then f.(pickupLocation := loc) else f.(dropoffLocation := loc)
  }

  /** `handlePickupChange` / `handleDropoffChange`: the text is replaced, that side's location and the route
      are cleared, and nothing else changes. */
  function Change(f: Form, side: Side, value: string): (g: Form)
    ensures g.Value(side) == value && g.LocationOf(side).None? && g.route.None?
    ensures g.Value(side.Other()) == f.Value(side.Other()) && g.LocationOf(side.Other()) == f.LocationOf(side.Other())
    ensures g.isLoading == f.isLoading && g.inflight == f.inflight && g.nextRequest == f.nextRequest
  {
    WithLocation(WithValue(f, side, value), side, None).(route := None)
  }

  /** `handlePickupSearch` / `handleDropoffSearch` up to the `await`: a blank text does nothing; otherwise
      loading starts and one geocode call for the current text goes out. The guard `!text.trim()` is
      `IsBlank` (see `Text.JsTrimEmptyIffBlank`). */
  function Search(f: Form, side: Side): (s: Step)
    ensures IsBlank(f.Value(side)) ==> s == Step(f, [])
    ensures !IsBlank(f.Value(side)) ==>
              && s.effects == [Called(Geocode(side, f.Value(side)))]
              && s.form.isLoading
              && s.form.inflight == f.inflight[f.nextRequest := Geocode(side, f.Value(side))]
              && s.form.nextRequest == f.nextRequest + 1
              && s.form.(isLoading := f.isLoading, inflight := f.inflight, nextRequest := f.nextRequest) == f
  {
    if IsBlank(f.Value(side)) then Step(f, [])
    else
      var r := Geocode(side, f.Value(side));
      Step(Issue(f, r).(isLoading := true), [Called(r)])
  }

  /** The route effect, run after every render whose locations changed: with both locations present it asks
      for the route between them. */
  function RouteEffect(f: Form): (s: Step)
    ensures f.BothLocated() ==>
              s == Step(Issue(f, RouteBetween(f.pickupLocation.value, f.dropoffLocation.value)),
                        [Called(RouteBetween(f.pickupLocation.value, f.dropoffLocation.value))])
    ensures !f.BothLocated() ==> s == Step(f, [])
  {
    if f.BothLocated() then
      var r := RouteBetween(f.pickupLocation.value, f.dropoffLocation.value);
      Step(Issue(f, r), [Called(r)])
    else Step(f, [])
  }

  function NotFoundMessage(side: Side): string {
    if side == Pickup then "Could not find pickup location" else "Could not find dropoff location"
  }

  /** A geocode call settles: on success the location of the side it was issued for is set (whatever the
      text says now) and, since a fresh location object always differs, the route effect runs; on failure
      a toast names the side and the location is left as it was. Loading ends either way. */
  function GeocodeSettled(f: Form, id: nat, result: Option<Location>): (s: Step)
    requires id in f.inflight && f.inflight[id].Geocode?
    ensures var side := f.inflight[id].side;
            && !s.form.isLoading
            && s.form.pickupValue == f.pickupValue && s.form.dropoffValue == f.dropoffValue
            && s.form.route == f.route
            && s.form.LocationOf(side.Other()) == f.LocationOf(side.Other())
            && s.form.LocationOf(side) == (if result.Some? then result else f.LocationOf(side))
            && (result.None? ==> s.effects == [ErrorToast(NotFoundMessage(side))])
    ensures !(result.Some? && s.form.BothLocated()) ==>
              s.form.inflight == f.inflight - {id} && s.form.nextRequest == f.nextRequest
    ensures result.Some? && !s.form.BothLocated() ==> s.effects == []
    ensures result.Some? && s.form.BothLocated() ==>
              var r := RouteBetween(s.form.pickupLocation.value, s.form.dropoffLocation.value);
              && s.effects == [Called(r)]
              && s.form.inflight == (f.inflight - {id})[f.nextRequest := r]
              && s.form.nextRequest == f.nextRequest + 1
  {
    var side := f.inflight[id].side;
    var f1 := f.(inflight := f.inflight - {id}, isLoading := false);
    match result
    case Some(loc) => RouteEffect(WithLocation(f1, side, Some(loc)))
    case None => Step(f1, [ErrorToast(NotFoundMessage(side))])
  }

  /** A route call settles: success sets the route with no check against the current locations; failure
      leaves the route as it was and raises a toast. */
  function RouteSettled(f: Form, id: nat, result: Option<seq<Location>>): (s: Step)
    requires id in f.inflight && f.inflight[id].RouteBetween?
    ensures s.form.route == (if result.Some? then result else f.route)
    ensures s.form.(route := f.route, inflight := f.inflight) == f && s.form.inflight == f.inflight - {id}
    ensures s.effects == (if result.Some? then [] else [ErrorToast("Could not calculate route")])
  {
    var f1 := f.(inflight := f.inflight - {id});
    match result
    case Some(path) => Step(f1.(route := Some(path)), [])
    case None => Step(f1, [ErrorToast("Could not calculate route")])
  }

  /** `handleBookRide` up to the `await`: empty raw texts are refused with a toast and no call; otherwise
      loading starts and the two texts, not the coordinates, are sent. */
  function BookRide(f: Form): (s: Step)
    ensures f.pickupValue == "" || f.dropoffValue == "" ==>
              s == Step(f, [ErrorToast("Please enter pickup and dropoff locations")])
    ensures f.pickupValue != "" && f.dropoffValue != "" ==>
              && s.effects == [Called(Book(RideBookingData(f.pickupValue, f.dropoffValue)))]
              && s.form.isLoading
              && s.form.inflight == f.inflight[f.nextRequest := Book(RideBookingData(f.pickupValue, f.dropoffValue))]
              && s.form.nextRequest == f.nextRequest + 1
              && s.form.(isLoading := f.isLoading, inflight := f.inflight, nextRequest := f.nextRequest) == f
  {
    if f.pickupValue == "" || f.dropoffValue == "" then
      Step(f, [ErrorToast("Please enter pickup and dropoff locations")])
    else
      var r := Book(RideBookingData(f.pickupValue, f.dropoffValue));
      Step(Issue(f, r).(isLoading := true), [Called(r)])
  }

  /** A booking call settles through the ride gateway: success toasts and navigates to `/my-rides`; any
      failure shows the generic "Failed to book ride", whatever message the gateway produced. */
  function BookSettled(f: Form, id: nat, reply: Reply<Ride>): (s: Step)
    requires id in f.inflight && f.inflight[id].Book?
    ensures s.form.(isLoading := f.isLoading, inflight := f.inflight) == f
    ensures !s.form.isLoading && s.form.inflight == f.inflight - {id}
    ensures reply.Replied? <==> NavigateTo("/my-rides") in s.effects
    ensures reply.Failed? ==> s.effects == [ErrorToast("Failed to book ride")]
  {
    var f1 := f.(inflight := f.inflight - {id}, isLoading := false);
    match RideApi.BookRide(reply)
    case Ok(_) => Step(f1, [SuccessToast("Ride booked successfully!"), NavigateTo("/my-rides")])
    case Err(_) => Step(f1, [ErrorToast("Failed to book ride")])
  }

  /** The search button is enabled only when nothing is loading and the text is not blank. */
  predicate SearchEnabled(f: Form, side: Side) {
    !f.isLoading && !IsBlank(f.Value(side))
  }

  /** The book button is enabled only when both locations are present; the texts are not consulted. */
  predicate BookEnabled(f: Form) {
    f.BothLocated()
  }

  /** What can happen to the form. Clicks on a disabled button do nothing; completions name the request
      they settle, and a completion naming no matching request in flight does nothing. */
  datatype Event =
    | Edited(side: Side, value: string)
    | SearchClicked(side: Side)
    | GeocodeDone(id: nat, location: Option<Location>)
    | RouteDone(id: nat, path: Option<seq<Location>>)
    | BookClicked
    | BookDone(id: nat, reply: Reply<Ride>)

  function Apply(f: Form, e: Event): Step {
    match e
    case Edited(side, value) => Step(Change(f, side, value), [])
    case SearchClicked(side) => if SearchEnabled(f, side) then Search(f, side) else Step(f, [])
    case GeocodeDone(id, loc) =>
      if id in f.inflight && f.inflight[id].Geocode? then GeocodeSettled(f, id, loc) else Step(f, [])
    case RouteDone(id, path) =>
      if id in f.inflight && f.inflight[id].RouteBetween? then RouteSettled(f, id, path) else Step(f, [])
    case BookClicked => if BookEnabled(f) then BookRide(f) else Step(f, [])
    case BookDone(id, reply) =>
      if id in f.inflight && f.inflight[id].Book? then BookSettled(f, id, reply) else Step(f, [])
  }

  /** The state after a sequence of events. */
  function Run(f: Form, events: seq<Event>): Form
    decreases |events|
  {
    if events == [] then f else Run(Apply(f, events[0]).form, events[1..])
  }

  // ---------------------------------------------------------------------------------------------
  // Properties of single steps

  /** A search through the handler on blank text makes no call and changes nothing. */
  lemma BlankSearchIsNoOp(f: Form, side: Side)
    requires JsTrim(f.Value(side)) == ""
    ensures Search(f, side) == Step(f, [])
    ensures Apply(f, SearchClicked(side)) == Step(f, [])
  {
    JsTrimEmptyIffBlank(f.Value(side));
  }

  /** A successful geocode sets only its own side's location, to the returned coordinate; texts, the other
      side and the route stay; loading ends; and a route call goes out exactly when both sides are located. */
  lemma GeocodeSuccessSetsOwnSide(f: Form, id: nat, loc: Location)
    requires id in f.inflight && f.inflight[id].Geocode?
    ensures var side := f.inflight[id].side;
            var s := Apply(f, GeocodeDone(id, Some(loc)));
            && s.form.LocationOf(side) == Some(loc)
            && s.form.LocationOf(side.Other()) == f.LocationOf(side.Other())
            && s.form.pickupValue == f.pickupValue && s.form.dropoffValue == f.dropoffValue
            && s.form.route == f.route
            && !s.form.isLoading
            && (s.effects != [] <==> s.form.BothLocated())
            && (s.form.BothLocated() ==>
                  s.effects == [Called(RouteBetween(s.form.pickupLocation.value, s.form.dropoffLocation.value))])
  {
  }

  /** A failed geocode keeps both locations (it does not clear them), names its side in a toast, and ends
      loading. */
  lemma GeocodeFailureKeepsLocation(f: Form, id: nat)
    requires id in f.inflight && f.inflight[id].Geocode?
    ensures var s := Apply(f, GeocodeDone(id, None));
            && s.form.pickupLocation == f.pickupLocation && s.form.dropoffLocation == f.dropoffLocation
            && s.form.route == f.route
            && !s.form.isLoading
            && s.effects == [ErrorToast(NotFoundMessage(f.inflight[id].side))]
  {
  }

  /** Route calls are made only by a geocode success, and only for the two locations the form then holds. */
  lemma RouteCalledOnlyWithBothLocations(f: Form, e: Event, from: Location, to: Location)
    requires Called(RouteBetween(from, to)) in Apply(f, e).effects
    ensures e.GeocodeDone? && e.location.Some?
    ensures Apply(f, e).form.pickupLocation == Some(from) && Apply(f, e).form.dropoffLocation == Some(to)
  {
  }

  /** A route result is stored unconditionally: even with a location cleared since the call went out. A
      failure leaves the route as it was. */
  lemma RouteResultUnconditional(f: Form, id: nat, path: seq<Location>)
    requires id in f.inflight && f.inflight[id].RouteBetween?
    ensures Apply(f, RouteDone(id, Some(path))).form.route == Some(path)
    ensures Apply(f, RouteDone(id, None)).form.route == f.route
    ensures Apply(f, RouteDone(id, None)).effects == [ErrorToast("Could not calculate route")]
  {
  }

  /** The book guard tests the raw texts, so an enabled button can still be refused and whitespace passes:
      with both locations present, a call goes out exactly when both texts are non-empty, carrying them. */
  lemma BookGuardOnRawText(f: Form)
    requires BookEnabled(f)
    ensures var s := Apply(f, BookClicked);
            && (s.effects == [Called(Book(RideBookingData(f.pickupValue, f.dropoffValue)))]
                <==> f.pickupValue != "" && f.dropoffValue != "")
            && (f.pickupValue == "" || f.dropoffValue == "" ==> s.form == f)
  {
  }

  /** Booking outcomes: success navigates to `/my-rides`; a failure of any kind shows the same generic
      message, so the server's message never reaches the user here. */
  lemma BookOutcomes(f: Form, id: nat, ride: Ride, failure: Failure)
    requires id in f.inflight && f.inflight[id].Book?
    ensures NavigateTo("/my-rides") in Apply(f, BookDone(id, Replied(ride))).effects
    ensures Apply(f, BookDone(id, Failed(failure))).effects == [ErrorToast("Failed to book ride")]
    ensures !Apply(f, BookDone(id, Replied(ride))).form.isLoading
    ensures !Apply(f, BookDone(id, Failed(failure))).form.isLoading
  {
  }

  /** One loading flag serves both searches: once a search goes out, neither search button is enabled, so a
      second click, on either side, makes no call until some call settles. */
  lemma SearchDisablesSearches(f: Form, side: Side, next: Side)
    requires SearchEnabled(f, side)
    ensures var g := Apply(f, SearchClicked(side)).form;
            && g.isLoading
            && Apply(g, SearchClicked(next)) == Step(g, [])
  {
  }

  // ---------------------------------------------------------------------------------------------
  // The route invariant and where it breaks

  /** A route is shown only with both locations present, holds the service's five points, and every route
      call in flight was made while both were present. */
  predicate RouteConsistent(f: Form) {
    && (f.route.Some? ==> f.BothLocated() && |f.route.value| == RoutePoints)
    && (forall id :: id in f.inflight && f.inflight[id].RouteBetween? ==> f.BothLocated())
  }

  predicate RoutePending(f: Form) {
    exists id :: id in f.inflight && f.inflight[id].RouteBetween?
  }

  /** Route results come from the route service, which always answers with five points. */
  predicate FromServices(e: Event) {
    e.RouteDone? && e.path.Some? ==> |e.path.value| == RoutePoints
  }

  /** Every event preserves the route invariant except an edit made while a route call is in flight. */
  lemma RouteConsistentStep(f: Form, e: Event)
    requires RouteConsistent(f) && FromServices(e)
    requires e.Edited? ==> !RoutePending(f)
    ensures RouteConsistent(Apply(f, e).form)
  {
    match e
    case Edited(side, value) =>
      assert Apply(f, e).form.inflight == f.inflight;
    case GeocodeDone(id, loc) => GeocodeKeepsRouteConsistent(f, id, loc);
    case SearchClicked(side) => NoNewRouteCall(f, e);
    case BookClicked => NoNewRouteCall(f, e);
    case RouteDone(id, path) =>
    case BookDone(id, reply) =>
  }

  /** A located geocode result may start a route call, and only with both locations present. */
  lemma GeocodeKeepsRouteConsistent(f: Form, id: nat, loc: Option<Location>)
    requires RouteConsistent(f)
    ensures RouteConsistent(Apply(f, GeocodeDone(id, loc)).form)
  {
    var g := Apply(f, GeocodeDone(id, loc)).form;
    forall k | k in g.inflight && g.inflight[k].RouteBetween?
      ensures g.BothLocated()
    {
      if k != f.nextRequest {
        assert k in f.inflight && f.inflight[k].RouteBetween?;
      }
    }
  }

  /** Searching and booking start no route call and leave both locations as they were. */
  lemma NoNewRouteCall(f: Form, e: Event)
    requires RouteConsistent(f)
    requires e.SearchClicked? || e.BookClicked?
    ensures RouteConsistent(Apply(f, e).form)
  {
    var g := Apply(f, e).form;
    forall k | k in g.inflight && g.inflight[k].RouteBetween?
      ensures g.BothLocated()
    {
      assert k in f.inflight && f.inflight[k].RouteBetween?;
    }
  }

  /** Events that never edit while a route call is in flight. */
  predicate Undisturbed(f: Form, events: seq<Event>)
    decreases |events|
  {
    events == [] ||
    (&& FromServices(events[0])
     && (events[0].Edited? ==> !RoutePending(f))
     && Undisturbed(Apply(f, events[0]).form, events[1..]))
  }

  /** As long as no edit interleaves with a route call, a shown route always has both locations. */
  lemma {:induction false} RouteConsistentRun(f: Form, events: seq<Event>)
    requires RouteConsistent(f) && Undisturbed(f, events)
    ensures RouteConsistent(Run(f, events))
    decreases |events|
  {
    if events != [] {
      RouteConsistentStep(f, events[0]);
      RouteConsistentRun(Apply(f, events[0]).form, events[1..]);
    }
  }

  /** An edit made while a route call is in flight clears that side's location, yet the late result is still
      installed: the route is then shown without both locations. */
  lemma EditDuringRouteCall(f: Form, id: nat, side: Side, value: string, path: seq<Location>)
    requires id in f.inflight && f.inflight[id].RouteBetween?
    ensures var g := Run(f, [Edited(side, value), RouteDone(id, Some(path))]);
            && g.route == Some(path)
            && g.LocationOf(side).None?
            && !RouteConsistent(g)
  {
    var f1 := Apply(f, Edited(side, value)).form;
    var f2 := Apply(f1, RouteDone(id, Some(path))).form;
    assert Run(f1, [RouteDone(id, Some(path))]) == Run(f2, []);
  }

  /** Running `xs` then `ys` is running `xs + ys`. */
  lemma {:induction false} RunAppend(f: Form, xs: seq<Event>, ys: seq<Event>)
    ensures Run(f, xs + ys) == Run(Run(f, xs), ys)
    decreases |xs|
  {
    if xs == [] {
      assert xs + ys == ys;
    } else {
      assert (xs + ys)[0] == xs[0];
      assert (xs + ys)[1..] == xs[1..] + ys;
      RunAppend(Apply(f, xs[0]).form, xs[1..], ys);
    }
  }

  /** Typing a non-blank address on an idle form, searching, and receiving a location sets exactly that side:
      the other side is as it was, loading has ended, no route is shown, and a route call is in flight
      exactly when the other side is located too. */
  lemma ResolveSide(f: Form, side: Side, text: string, loc: Location)
    requires !f.isLoading && f.inflight == map[] && !IsBlank(text)
    ensures var g := Run(f, [Edited(side, text), SearchClicked(side), GeocodeDone(f.nextRequest, Some(loc))]);
            && g.Value(side) == text && g.LocationOf(side) == Some(loc)
            && g.Value(side.Other()) == f.Value(side.Other()) && g.LocationOf(side.Other()) == f.LocationOf(side.Other())
            && !g.isLoading && g.route.None?
            && g.inflight == (if g.BothLocated()
                              then map[f.nextRequest + 1 := RouteBetween(g.pickupLocation.value, g.dropoffLocation.value)]
                              else map[])
            && g.nextRequest == (if g.BothLocated() then f.nextRequest + 2 else f.nextRequest + 1)
  {
    var e1, e2, e3 := Edited(side, text), SearchClicked(side), GeocodeDone(f.nextRequest, Some(loc));
    var f1 := Apply(f, e1).form;
    var f2 := Apply(f1, e2).form;
    assert f2.inflight == map[f.nextRequest := Geocode(side, text)];
    var f3 := Apply(f2, e3).form;
    assert f2.inflight - {f.nextRequest} == map[];
    assert Run(f2, [e3]) == f3;
    assert Run(f1, [e2, e3]) == f3 by { assert [e2, e3][1..] == [e3]; }
    assert Run(f, [e1, e2, e3]) == f3 by { assert [e1, e2, e3][1..] == [e2, e3]; }
  }

  /** Such a state is reachable: resolving both sides leaves a route call in flight for the two locations. */
  lemma RouteCallReachable()
    ensures var a := Location(1.0, 1.0);
            var b := Location(2.0, 2.0);
            var f := Run(Initial, [
              Edited(Pickup, "A"), SearchClicked(Pickup), GeocodeDone(0, Some(a)),
              Edited(Dropoff, "B"), SearchClicked(Dropoff), GeocodeDone(1, Some(b))]);
            2 in f.inflight && f.inflight[2] == RouteBetween(a, b)
  {
    var a := Location(1.0, 1.0);
    var b := Location(2.0, 2.0);
    var first := [Edited(Pickup, "A"), SearchClicked(Pickup), GeocodeDone(0, Some(a))];
    var second := [Edited(Dropoff, "B"), SearchClicked(Dropoff), GeocodeDone(1, Some(b))];
    assert !IsBlank("A") && !IsBlank("B") by {
      assert !IsJsSpace("A"[0]) && !IsJsSpace("B"[0]);
    }
    ResolveSide(Initial, Pickup, "A", a);
    var f3 := Run(Initial, first);
    assert f3 == Form("A", "", Some(a), None, None, false, map[], 1);
    ResolveSide(f3, Dropoff, "B", b);
    assert Run(f3, second).inflight == map[2 := RouteBetween(a, b)];
    RunAppend(Initial, first, second);
    assert first + second == [
      Edited(Pickup, "A"), SearchClicked(Pickup), GeocodeDone(0, Some(a)),
      Edited(Dropoff, "B"), SearchClicked(Dropoff), GeocodeDone(1, Some(b))];
  }

  /** A geocode result arriving after the text was emptied still sets the location: the book button is then
      enabled while its handler refuses the empty text. */
  lemma StaleGeocodeAfterEdit()
    ensures var a := Location(1.0, 1.0);
            var b := Location(2.0, 2.0);
            var f := Run(Initial, [
              Edited(Dropoff, "B"), SearchClicked(Dropoff), GeocodeDone(0, Some(b)),
              Edited(Pickup, "A"), SearchClicked(Pickup), Edited(Pickup, ""), GeocodeDone(1, Some(a))]);
            && f.pickupValue == "" && f.pickupLocation == Some(a)
            && BookEnabled(f)
            && Apply(f, BookClicked).effects == [ErrorToast("Please enter pickup and dropoff locations")]
  {
    var a := Location(1.0, 1.0);
    var b := Location(2.0, 2.0);
    var first := [Edited(Dropoff, "B"), SearchClicked(Dropoff), GeocodeDone(0, Some(b))];
    var second := [Edited(Pickup, "A"), SearchClicked(Pickup), Edited(Pickup, ""), GeocodeDone(1, Some(a))];
    assert !IsBlank("B") by {
      assert !IsJsSpace("B"[0]);
    }
    ResolveSide(Initial, Dropoff, "B", b);
    var f3 := Run(Initial, first);
    assert f3 == Form("", "B", None, Some(b), None, false, map[], 1);
    var f7 := LateGeocode(f3, a);
    RunAppend(Initial, first, second);
    assert first + second == [
      Edited(Dropoff, "B"), SearchClicked(Dropoff), GeocodeDone(0, Some(b)),
      Edited(Pickup, "A"), SearchClicked(Pickup), Edited(Pickup, ""), GeocodeDone(1, Some(a))];
  }

  /** The second half of the trace above: search the pickup for "A", empty its text, then receive the result. */
  lemma LateGeocode(f: Form, a: Location) returns (g: Form)
    requires f == Form("", "B", None, f.dropoffLocation, None, false, map[], 1) && f.dropoffLocation.Some?
    ensures g == Run(f, [Edited(Pickup, "A"), SearchClicked(Pickup), Edited(Pickup, ""), GeocodeDone(1, Some(a))])
    ensures g.pickupValue == "" && g.pickupLocation == Some(a) && g.dropoffLocation == f.dropoffLocation
  {
    assert !IsBlank("A") by {
      assert !IsJsSpace("A"[0]);
    }
    var e1, e2, e3, e4 := Edited(Pickup, "A"), SearchClicked(Pickup), Edited(Pickup, ""), GeocodeDone(1, Some(a));
    var f1 := Apply(f, e1).form;
    var f2 := Apply(f1, e2).form;
    assert f2.inflight == map[1 := Geocode(Pickup, "A")];
    var f3 := Apply(f2, e3).form;
    assert f3.inflight == f2.inflight;
    g := Apply(f3, e4).form;
    assert f3.inflight - {1} == map[];
    assert Run(f3, [e4]) == g;
    assert Run(f2, [e3, e4]) == g by { assert [e3, e4][1..] == [e4]; }
    assert Run(f1, [e2, e3, e4]) == g by { assert [e2, e3, e4][1..] == [e3, e4]; }
    assert Run(f, [e1, e2, e3, e4]) == g by { assert [e1, e2, e3, e4][1..] == [e2, e3, e4]; }
  }
}

=== FILE: my_rides.dfy ===
/** The ride history page (project/src/pages/MyRides.tsx): one fetch on mount, then a view chosen from the
    loading flag, the error and the list. */
module MyRides {
  import opened Wrappers
  import opened Domain
  import opened Gateway
  import RideApi
  import RideCard

  /** The page's React state. */
  datatype Page = Page(rides: seq<Ride>, isLoading: bool, error: Option<string>)

  /** rides = [], isLoading = true, error = null. */
  const Mounted: Page := Page([], true, None)

  const LoadFailed: string := "Failed to load your rides. Please try again later."

  datatype Effect = FetchRides | ErrorToast(message: string)

  datatype Step = Step(page: Page, effects: seq<Effect>)

  /** The mount effect: loading is (re)set and the list is requested, once. */
  function Mount(): (s: Step)
    ensures s.page.rides == [] && s.page.isLoading && s.page.error.None?
    ensures s.effects == [FetchRides]
  {
    Step(Mounted.(isLoading := true), [FetchRides])
  }

  /** The request settles: a reply replaces the list; a failure of any kind keeps the list, sets the fixed
      error and raises a toast. Loading ends either way. */
  function Settled(p: Page, reply: Reply<seq<Ride>>): (s: Step)
    ensures !s.page.isLoading
    ensures reply.Replied? ==> s.page == p.(rides := reply.data, isLoading := false) && s.effects == []
    ensures reply.Failed? ==>
              && s.page == p.(isLoading := false, error := Some(LoadFailed))
              && s.effects == [ErrorToast("Failed to load your rides")]
  {
    match RideApi.GetUserRides(reply)
    case Ok(data) => Step(p.(rides := data, isLoading := false), [])
    case Err(_) => Step(p.(isLoading := false, error := Some(LoadFailed)), [ErrorToast("Failed to load your rides")])
  }

  /** One card per ride: the ride with its badge. */
  datatype Card = Card(ride: Ride, icon: RideCard.Icon, text: string)

  datatype View = Spinner | ErrorBanner(message: string) | NoRides | Cards(cards: seq<Card>)

  function CardOf(r: Ride): (c: Card)
    ensures c.ride == r
  {
    Card(r, RideCard.StatusIcon(r.status), RideCard.StatusText(r.status))
  }

  /** The view: loading wins over an error, an error over an empty list; otherwise the rides in the order
      received. A present but empty error message is falsy and shows the list. */
  function ViewOf(p: Page): (v: View)
    ensures v.Spinner? <==> p.isLoading
    ensures v.ErrorBanner? <==> !p.isLoading && p.error.Some? && p.error.value != ""
    ensures v.ErrorBanner? ==> v.message == p.error.value
    ensures v.NoRides? <==> !p.isLoading && (p.error.None? || p.error.value == "") && p.rides == []
    ensures v.Cards? ==> |v.cards| == |p.rides| && forall i :: 0 <= i < |p.rides| ==> v.cards[i].ride == p.rides[i]
  {
    if p.isLoading then Spinner
    else if p.error.Some? && p.error.value != "" then ErrorBanner(p.error.value)
    else if p.rides == [] then NoRides
    else Cards(seq(|p.rides|, i requires 0 <= i < |p.rides| => CardOf(p.rides[i])))
  }

  /** What the user sees once the one fetch settles: the rides as sent, "No rides yet", or the fixed error. */
  lemma SettledView(reply: Reply<seq<Ride>>)
    ensures var v := ViewOf(Settled(Mount().page, reply).page);
            && (reply.Failed? <==> v == ErrorBanner(LoadFailed))
            && (v.NoRides? <==> reply.Replied? && reply.data == [])
            && (v.Cards? <==> reply.Replied? && reply.data != [])
            && (v.Cards? ==> forall i :: 0 <= i < |v.cards| ==> v.cards[i] == CardOf(reply.data[i]))
  {
  }
}

=== FILE: ride_api.dfy ===
/** The client's ride gateway (project/src/api/rideApi.ts): a request interceptor that attaches the
    stored token, and the `bookRide` / `getUserRides` wrappers. */
module RideApi {
  import opened Wrappers
  import opened Text
  import opened Domain
  import opened Gateway
  import AuthApi

  /** The part of an axios request configuration the interceptor touches. */
  datatype RequestConfig = RequestConfig(headers: map<string, string>)

  const Authorization: string := "Authorization"

  /** The request interceptor: with a truthy stored token the request carries `Bearer <token>` and
      every other header as it was; otherwise the configuration is returned untouched. */
  function Intercept(storedToken: Option<string>, config: RequestConfig): (c: RequestConfig)
    ensures Truthy(storedToken) ==>
              && c.headers.Keys == config.headers.Keys + {Authorization}
              && c.headers[Authorization] == AuthApi.Bearer(storedToken.value)
              && forall k :: k in config.headers && k != Authorization ==> c.headers[k] == config.headers[k]
    ensures !Truthy(storedToken) ==> c == config
  {
    if Truthy(storedToken) then
      RequestConfig(config.headers[Authorization := AuthApi.Bearer(storedToken.value)])
    else
      config
  }

  /** `bookRide(data)`: the booked ride on success; an axios error becomes an `Error` with the response's
      `message` field or "Failed to book ride". */
  function BookRide(reply: Reply<Ride>): (r: Result<Ride, Thrown>)
    ensures r.Ok? <==> reply.Replied?
    ensures r.Ok? ==> r.value == reply.data
    ensures reply.Failed? && reply.failure.NotHttp? ==> r == Err(reply.failure.thrown)
    ensures reply.Failed? && reply.failure.HttpFailure? ==>
              r == Err(ErrorObject(MessageOnly(reply.failure.body, "Failed to book ride")))
  {
    Settle(reply, body => MessageOnly(body, "Failed to book ride"))
  }

  /** `getUserRides()`: the list on success; an axios error becomes an `Error` with the response's
      `message` field or "Failed to fetch rides". */
  function GetUserRides(reply: Reply<seq<Ride>>): (r: Result<seq<Ride>, Thrown>)
    ensures r.Ok? <==> reply.Replied?
    ensures r.Ok? ==> r.value == reply.data
    ensures reply.Failed? && reply.failure.NotHttp? ==> r == Err(reply.failure.thrown)
    ensures reply.Failed? && reply.failure.HttpFailure? ==>
              r == Err(ErrorObject(MessageOnly(reply.failure.body, "Failed to fetch rides")))
  {
    Settle(reply, body => MessageOnly(body, "Failed to fetch rides"))
  }

  /** The booking error never consults the response's `error` field, unlike signup and login: a server
      answering `{error: e}` alone yields the generic message, whatever `e` says. */
  lemma BookRideIgnoresErrorField(e: string, message: Option<string>)
    ensures BookRide(Failed(HttpFailure(Some(ErrorBody(Some(e), message)))))
         == BookRide(Failed(HttpFailure(Some(ErrorBody(None, message)))))
    ensures BookRide(Failed(HttpFailure(Some(ErrorBody(Some(e), None)))))
         == Err(ErrorObject("Failed to book ride"))
  {
  }
}

=== FILE: ride_card.dfy ===
/** The status badge of a ride card (project/src/components/rides/RideCard.tsx): an icon and a label chosen
    from the status string the server sent. */
module RideCard {
  import opened Text
  import opened Domain

  /** The three icons the badge can show. */
  datatype Icon = GreenCheck | RedCross | BlueClock

  /** `getStatusIcon`: completed and cancelled rides have their own icon; pending, confirmed and any
      unknown status share the clock. */
  function StatusIcon(raw: string): (icon: Icon)
    ensures icon == GreenCheck <==> raw == WireName(Completed)
    ensures icon == RedCross <==> raw == WireName(Cancelled)
  {
    if raw == "COMPLETED" then GreenCheck
    else if raw == "CANCELLED" then RedCross
    else BlueClock
  }

  /** `getStatusText`: the three named statuses have their own label; pending and any unknown status read
      "Pending". */
  function StatusText(raw: string): (text: string)
    ensures text == "Completed" <==> raw == WireName(Completed)
    ensures text == "Cancelled" <==> raw == WireName(Cancelled)
    ensures text == "Confirmed" <==> raw == WireName(Confirmed)
    ensures text == "Pending" <==> raw != WireName(Completed) && raw != WireName(Cancelled) && raw != WireName(Confirmed)
  {
    if raw == "COMPLETED" then "Completed"
    else if raw == "CANCELLED" then "Cancelled"
    else if raw == "CONFIRMED" then "Confirmed"
    else "Pending"
  }

  /** The label of a known status is its wire name with every letter after the first lower-cased. */
  lemma LabelIsCapitalisedName(s: RideStatus)
    ensures var name := WireName(s);
            StatusText(name) == [name[0]] + AsciiLower(name[1..])
  {
    assert LowerChar('A') == 'a' && LowerChar('C') == 'c' && LowerChar('D') == 'd' && LowerChar('E') == 'e';
    assert LowerChar('F') == 'f' && LowerChar('G') == 'g' && LowerChar('I') == 'i' && LowerChar('L') == 'l';
    assert LowerChar('M') == 'm' && LowerChar('N') == 'n' && LowerChar('O') == 'o' && LowerChar('P') == 'p';
    assert LowerChar('R') == 'r' && LowerChar('T') == 't';
    match s
    case Pending => CapitalisedBy("PENDING", "Pending");
    case Confirmed => CapitalisedBy("CONFIRMED", "Confirmed");
    case Completed => CapitalisedBy("COMPLETED", "Completed");
    case Cancelled => CapitalisedBy("CANCELLED", "Cancelled");
  }

  /** `text` is `name` with every character after the first lower-cased. */
  lemma CapitalisedBy(name: string, text: string)
    requires |name| == |text| > 0 && name[0] == text[0]
    requires forall i :: 1 <= i < |name| ==> LowerChar(name[i]) == text[i]
    ensures text == [name[0]] + AsciiLower(name[1..])
  {
    var tail := name[1..];
    forall i | 0 <= i < |tail|
      ensures AsciiLower(tail)[i] == text[i + 1]
    {
      assert tail[i] == name[i + 1];
    }
  }

  /** Distinct statuses get distinct labels. */
  lemma LabelInjective(a: RideStatus, b: RideStatus)
    ensures StatusText(WireName(a)) == StatusText(WireName(b)) ==> a == b
  {
  }

  /** Distinct statuses can share an icon: pending and confirmed look alike. */
  lemma IconNotInjective()
    ensures StatusIcon(WireName(Pending)) == StatusIcon(WireName(Confirmed))
    ensures Pending != Confirmed
  {
  }

  /** A status outside the four names reads as pending: the "Pending" label and the clock. */
  lemma UnknownStatusLooksPending(raw: string)
    requires forall s: RideStatus :: raw != WireName(s)
    ensures StatusText(raw) == StatusText(WireName(Pending))
    ensures StatusIcon(raw) == StatusIcon(WireName(Pending))
  {
    assert raw != WireName(Completed) && raw != WireName(Cancelled) && raw != WireName(Confirmed);
  }
}

=== FILE: ride_service.dfy ===
/** The server's ride service (RideService.java) over an in-memory ride table, with the derived query
    `findByUserOrderByDateTimeDesc` of RideRepository.java. Users come from the authentication service's
    store; the clock is a parameter and time is a whole number. */
module RideService {
  import opened Wrappers
  import opened Domain
  import AuthService

  /** A saved ride (Ride.java): its owner is held by id. */
  datatype RideRecord = RideRecord(id: int, ownerId: int, pickupLocation: string, dropLocation: string,
                                   dateTime: int, status: RideStatus)

  /** The ride table in insertion order, and the identity the next insert receives. */
  datatype RideStore = RideStore(rides: seq<RideRecord>, nextId: int)

  /** `RideRequestDto`. */
  datatype RideRequest = RideRequest(pickupLocation: string, dropLocation: string)

  /** `RideResponseDto`: everything but the owner. */
  datatype RideResponseDto = RideResponseDto(id: int, pickupLocation: string, dropLocation: string,
                                             dateTime: int, status: RideStatus)

  /** A successful booking: the table after the insert and the response. */
  datatype Booked = Booked(store: RideStore, response: RideResponseDto)

  /** `RideResponseDto.fromRide`. */
  function FromRide(r: RideRecord): (d: RideResponseDto)
    ensures d.id == r.id && d.pickupLocation == r.pickupLocation && d.dropLocation == r.dropLocation
    ensures d.dateTime == r.dateTime && d.status == r.status
  {
    RideResponseDto(r.id, r.pickupLocation, r.dropLocation, r.dateTime, r.status)
  }

  /** `bookRide`: the user is looked up by the exact email the token names; an unknown email throws
      "User not found". Otherwise one confirmed ride stamped `now` is appended. */
  function BookRide(users: AuthService.UserStore, store: RideStore, req: RideRequest, userEmail: string, now: int)
    : (r: Result<Booked, AuthService.ServiceError>)
    ensures r.Err? <==> userEmail !in users.byEmail
    ensures r.Err? ==> r.error == AuthService.UsernameNotFound("User not found")
    ensures r.Ok? ==>
              var ride := RideRecord(store.nextId, users.byEmail[userEmail].id, req.pickupLocation, req.dropLocation,
                                     now, Confirmed);
              && r.value.store.rides == store.rides + [ride]
              && r.value.store.nextId == store.nextId + 1
              && r.value.response == FromRide(ride)
  {
    if userEmail !in users.byEmail then Err(AuthService.UsernameNotFound("User not found"))
    else
      var ride := RideRecord(store.nextId, users.byEmail[userEmail].id, req.pickupLocation, req.dropLocation,
                             now, Confirmed);
      Ok(Booked(RideStore(store.rides + [ride], store.nextId + 1), FromRide(ride)))
  }

  // ---------------------------------------------------------------------------------------------
  // findByUserOrderByDateTimeDesc

  /** The rides of one owner, in table order. */
  function OwnedBy(rides: seq<RideRecord>, ownerId: int): (r: seq<RideRecord>)
    ensures forall i :: 0 <= i < |r| ==> r[i].ownerId == ownerId
    ensures |r| <= |rides|
  {
    if rides == [] then []
    else (if rides[0].ownerId == ownerId then [rides[0]] else []) + OwnedBy(rides[1..], ownerId)
  }

  /** The filter keeps every ride of the owner exactly as often as the table holds it, and no other ride. */
  lemma {:induction false} OwnedByCounts(rides: seq<RideRecord>, ownerId: int)
    ensures forall x :: multiset(OwnedBy(rides, ownerId))[x] == if x.ownerId == ownerId then multiset(rides)[x] else 0
  {
    if rides != [] {
      OwnedByCounts(rides[1..], ownerId);
      assert rides == [rides[0]] + rides[1..];
      assert multiset(rides) == multiset{rides[0]} + multiset(rides[1..]);
    }
  }

  /** Later rides first: `dateTime` never increases along the sequence. */
  predicate NewestFirst(s: seq<RideRecord>) {
    forall i, j :: 0 <= i < j < |s| ==> s[i].dateTime >= s[j].dateTime
  }

  /** Inserts `x` into a newest-first sequence, before every ride not later than it. */
  function Insert(x: RideRecord, s: seq<RideRecord>): (r: seq<RideRecord>)
    requires NewestFirst(s)
    ensures NewestFirst(r)
    ensures multiset(r) == multiset(s) + multiset{x}
    ensures r[0] == x || (s != [] && r[0] == s[0])
  {
    if s == [] || x.dateTime >= s[0].dateTime then
      ConsNewestFirst(x, s);
      [x] + s
    else
      var t := Insert(x, s[1..]);
      assert s == [s[0]] + s[1..];
      ConsNewestFirst(s[0], t);
      [s[0]] + t
  }

  /** A ride no earlier than the head of a newest-first sequence may go in front of it. */
  lemma ConsNewestFirst(y: RideRecord, t: seq<RideRecord>)
    requires NewestFirst(t)
    requires t == [] || y.dateTime >= t[0].dateTime
    ensures NewestFirst([y] + t)
  {
    var r := [y] + t;
    forall i, j | 0 <= i < j < |r|
      ensures r[i].dateTime >= r[j].dateTime
    {
      if i == 0 {
        assert r[j] == t[j - 1];
        assert t[0].dateTime >= t[j - 1].dateTime;
      } else {
        assert r[i] == t[i - 1] && r[j] == t[j - 1];
      }
    }
  }

  /** Orders rides newest first, keeping every ride exactly once. */
  function SortNewestFirst(s: seq<RideRecord>): (r: seq<RideRecord>)
    ensures NewestFirst(r)
    ensures multiset(r) == multiset(s)
  {
    if s == [] then []
    else
      assert s == [s[0]] + s[1..];
      Insert(s[0], SortNewestFirst(s[1..]))
  }

  /** `findByUserOrderByDateTimeDesc(user)`: the owner's rides, newest first. The order among rides with
      the same `dateTime` is left to the database; this definition fixes one. */
  function UserRides(rides: seq<RideRecord>, ownerId: int): (r: seq<RideRecord>)
    ensures NewestFirst(r)
  {
    SortNewestFirst(OwnedBy(rides, ownerId))
  }

  /** The query returns exactly the owner's rides, each as often as it is stored, newest first. */
  lemma UserRidesSpec(rides: seq<RideRecord>, ownerId: int)
    ensures NewestFirst(UserRides(rides, ownerId))
    ensures forall x :: multiset(UserRides(rides, ownerId))[x] == if x.ownerId == ownerId then multiset(rides)[x] else 0
    ensures forall x :: x in UserRides(rides, ownerId) <==> x in rides && x.ownerId == ownerId
  {
    OwnedByCounts(rides, ownerId);
    var r := UserRides(rides, ownerId);
    forall x ensures x in r <==> x in rides && x.ownerId == ownerId {
      assert x in r <==> x in multiset(r);
      assert x in rides <==> x in multiset(rides);
    }
  }

  /** `getUserRides`: an unknown email throws "User not found"; otherwise the owner's rides, newest first,
      each converted to its response. */
  function GetUserRides(users: AuthService.UserStore, store: RideStore, userEmail: string)
    : (r: Result<seq<RideResponseDto>, AuthService.ServiceError>)
    ensures r.Err? <==> userEmail !in users.byEmail
    ensures r.Err? ==> r.error == AuthService.UsernameNotFound("User not found")
    ensures r.Ok? ==>
              var rides := UserRides(store.rides, users.byEmail[userEmail].id);
              && |r.value| == |rides|
              && forall i :: 0 <= i < |rides| ==> r.value[i] == FromRide(rides[i])
  {
    if userEmail !in users.byEmail then Err(AuthService.UsernameNotFound("User not found"))
    else
      var rides := UserRides(store.rides, users.byEmail[userEmail].id);
      Ok(seq(|rides|, i requires 0 <= i < |rides| => FromRide(rides[i])))
  }

  /** The owner filter distributes over concatenation. */
  lemma {:induction false} OwnedByAppend(a: seq<RideRecord>, b: seq<RideRecord>, ownerId: int)
    ensures OwnedBy(a + b, ownerId) == OwnedBy(a, ownerId) + OwnedBy(b, ownerId)
  {
    if a != [] {
      assert (a + b)[0] == a[0];
      assert (a + b)[1..] == a[1..] + b;
      OwnedByAppend(a[1..], b, ownerId);
    } else {
      assert a + b == b;
    }
  }

  /** A booking changes no other user's rides, and adds exactly the booked ride to the booking user's. */
  lemma BookRideTouchesOnlyOwner(users: AuthService.UserStore, store: RideStore, req: RideRequest, userEmail: string,
                                 now: int, other: int)
    requires BookRide(users, store, req, userEmail, now).Ok?
    ensures var b := BookRide(users, store, req, userEmail, now).value;
            var owner := users.byEmail[userEmail].id;
            && (other != owner ==> OwnedBy(b.store.rides, other) == OwnedBy(store.rides, other))
            && OwnedBy(b.store.rides, owner) == OwnedBy(store.rides, owner) + [b.store.rides[|store.rides|]]
  {
    var b := BookRide(users, store, req, userEmail, now).value;
    var ride := b.store.rides[|store.rides|];
    OwnedByAppend(store.rides, [ride], other);
    OwnedByAppend(store.rides, [ride], users.byEmail[userEmail].id);
  }

  /** The query lists a ride exactly when it is stored and belongs to the owner. */
  lemma UserRidesMembers(rides: seq<RideRecord>, ownerId: int)
    ensures forall x :: x in UserRides(rides, ownerId) <==> x in rides && x.ownerId == ownerId
  {
    UserRidesSpec(rides, ownerId);
  }

  /** In a newest-first sequence, a ride strictly later than every other ride in it comes first. */
  lemma LatestLeads(s: seq<RideRecord>, x: RideRecord)
    requires NewestFirst(s) && x in s
    requires forall y :: y in s && y != x ==> y.dateTime < x.dateTime
    ensures s[0] == x
  {
    var k :| 0 <= k < |s| && s[k] == x;
    assert s[0].dateTime >= x.dateTime;
  }

  /** With a clock that has moved past every earlier ride of the user, the ride just booked heads the user's
      list. */
  lemma BookedRideListedFirst(users: AuthService.UserStore, store: RideStore, req: RideRequest, userEmail: string,
                              now: int)
    requires userEmail in users.byEmail
    requires forall i :: 0 <= i < |store.rides| ==> store.rides[i].dateTime < now
    ensures var b := BookRide(users, store, req, userEmail, now).value;
            var listed := GetUserRides(users, b.store, userEmail).value;
            |listed| > 0 && listed[0] == b.response
  {
    var b := BookRide(users, store, req, userEmail, now).value;
    var owner := users.byEmail[userEmail].id;
    var rides := b.store.rides;
    var ride := rides[|store.rides|];
    assert rides == store.rides + [ride];
    UserRidesMembers(rides, owner);
    var sorted := UserRides(rides, owner);
    forall y | y in sorted && y != ride
      ensures y.dateTime < now
    {
      assert y in store.rides;
    }
    LatestLeads(sorted, ride);
  }

  /** Ride ids below the table's next id, as the identity column keeps them. */
  predicate IdsBelowNext(store: RideStore) {
    forall i :: 0 <= i < |store.rides| ==> store.rides[i].id < store.nextId
  }

  /** Booking keeps every id below the next one, so the new ride's id is distinct from every stored id. */
  lemma BookRideFreshId(users: AuthService.UserStore, store: RideStore, req: RideRequest, userEmail: string, now: int)
    requires IdsBelowNext(store)
    requires BookRide(users, store, req, userEmail, now).Ok?
    ensures var b := BookRide(users, store, req, userEmail, now).value;
            && IdsBelowNext(b.store)
            && forall i :: 0 <= i < |store.rides| ==> store.rides[i].id != b.response.id
  {
  }
}

=== FILE: routing.dfy ===
/** The route table (project/src/App.tsx) and the guard in front of the signed-in pages
    (project/src/components/layout/AuthGuard.tsx), with the browser history the redirects act on. */
module Routing {
  import opened Wrappers

  datatype Screen = LoginScreen | SignupScreen | HomeScreen | MyRidesScreen

  /** What a route element does: render a screen, or navigate (`<Navigate to replace>`). */
  datatype Outcome = Render(screen: Screen) | Redirect(to: string, replace: bool)

  /** `AuthGuard`: the children when signed in, otherwise a replacing redirect to `/login`. The child plays no
      part in the decision. */
  function Guard(isAuthenticated: bool, child: Screen): (o: Outcome)
    ensures isAuthenticated ==> o == Render(child)
    ensures !isAuthenticated ==> o == Redirect("/login", true)
  {
    if !isAuthenticated then Redirect("/login", true) else Render(child)
  }

  /** The `<Routes>` table: two public pages, two guarded pages, and a replacing redirect to `/` for
      everything else. Every route sees the same session flag, since the provider wraps them all. */
  function Route(path: string, isAuthenticated: bool): (o: Outcome)
    ensures path == "/login" ==> o == Render(LoginScreen)
    ensures path == "/signup" ==> o == Render(SignupScreen)
    ensures path == "/" ==> o == Guard(isAuthenticated, HomeScreen)
    ensures path == "/my-rides" ==> o == Guard(isAuthenticated, MyRidesScreen)
    ensures path !in {"/login", "/signup", "/", "/my-rides"} ==> o == Redirect("/", true)
  {
    if path == "/login" then Render(LoginScreen)
    else if path == "/signup" then Render(SignupScreen)
    else if path == "/" then Guard(isAuthenticated, HomeScreen)
    else if path == "/my-rides" then Guard(isAuthenticated, MyRidesScreen)
    else Redirect("/", true)
  }

  /** The browser's history stack; the current entry is the last. */
  datatype History = History(entries: seq<string>) {
    predicate Valid() { |entries| > 0 }
    function Current(): string requires Valid() { entries[|entries| - 1] }
  }

  /** Navigation: a replace overwrites the current entry, a push adds one. */
  function Go(h: History, to: string, replace: bool): (h': History)
    requires h.Valid()
    ensures h'.Valid() && h'.Current() == to
    ensures replace ==> |h'.entries| == |h.entries| && h'.entries[..|h.entries| - 1] == h.entries[..|h.entries| - 1]
    ensures !replace ==> h'.entries == h.entries + [to]
  {
    if replace then History(h.entries[..|h.entries| - 1] + [to]) else History(h.entries + [to])
  }

  /** Follows redirects from the current entry for at most `hops` navigations; None when a redirect is still
      pending after that. */
  function Follow(h: History, isAuthenticated: bool, hops: nat): (r: Option<(History, Screen)>)
    requires h.Valid()
    ensures r.Some? ==> r.value.0.Valid() && Route(r.value.0.Current(), isAuthenticated) == Render(r.value.1)
    decreases hops
  {
    match Route(h.Current(), isAuthenticated)
    case Render(s) => Some((h, s))
    case Redirect(to, replace) => if hops == 0 then None else Follow(Go(h, to, replace), isAuthenticated, hops - 1)
  }

  /** The user opens `path` (a push), and the router follows its redirects. */
  function Visit(h: History, path: string, isAuthenticated: bool): Option<(History, Screen)>
    requires h.Valid()
  {
    Follow(Go(h, path, false), isAuthenticated, 2)
  }

  /** Every path settles within two redirects, with one new history entry: the redirects replace, so the
      pages passed through leave nothing behind. Signed out, every path but `/signup` ends at the login
      page; signed in, every unknown path ends at home and the known ones render as named. */
  lemma VisitLands(h: History, path: string, isAuthenticated: bool)
    requires h.Valid()
    ensures var r := Visit(h, path, isAuthenticated);
            && r.Some?
            && |r.value.0.entries| == |h.entries| + 1
            && r.value.0.entries[..|h.entries|] == h.entries
            && (!isAuthenticated ==> r.value.1 == (if path == "/signup" then SignupScreen else LoginScreen))
            && (isAuthenticated ==> r.value.1 == match path
                  case "/login" => LoginScreen
                  case "/signup" => SignupScreen
                  case "/my-rides" => MyRidesScreen
                  case _ => HomeScreen)
  {
    var h1 := Go(h, path, false);
    assert h1.entries[..|h.entries|] == h.entries;
    var o := Route(path, isAuthenticated);
    if o.Redirect? {
      var h2 := Go(h1, o.to, o.replace);
      assert h2.entries[..|h.entries|] == h.entries;
      assert Follow(h1, isAuthenticated, 2) == Follow(h2, isAuthenticated, 1);
      var o2 := Route(o.to, isAuthenticated);
      if o2.Redirect? {
        var h3 := Go(h2, o2.to, o2.replace);
        assert h3.entries[..|h.entries|] == h.entries;
        assert Follow(h2, isAuthenticated, 1) == Follow(h3, isAuthenticated, 0);
      }
    }
  }

  /** A signed-in user is not turned away from the login and signup pages: they render as for anyone. */
  lemma PublicPagesIgnoreSession(path: string)
    requires path == "/login" || path == "/signup"
    ensures Route(path, true) == Route(path, false)
  {
  }
}

=== FILE: session.dfy ===
/** The client session store (project/src/context/AuthContext.tsx): user, token and authentication
    flag in memory, restored once from local storage when the provider mounts, set after signup or
    login, cleared on logout. Token decoding and the clock are parameters. */
module Session {
  import opened Wrappers
  import opened Text
  import opened Domain
  import AuthApi
  import RideApi

  /** The claims read from a token: `exp` (section 4.1.4 of RFC 7519, seconds since the epoch),
      `sub` (section 4.1.2 of RFC 7519, the user's email) and the custom `id` and `name` claims. */
  datatype Claims = Claims(exp: Option<int>, id: int, name: string, sub: string)

  /** The provider's React state. */
  datatype Session = Session(user: Option<User>, token: Option<string>, isAuthenticated: bool)

  /** The session together with the browser state the gateway keeps. */
  datatype Client = Client(session: Session, browser: AuthApi.Browser)

  /** user = null, token = null, isAuthenticated = false. */
  const SignedOut: Session := Session(None, None, false)

  /** The provider on first render, before the restore effect runs. */
  function Mount(browser: AuthApi.Browser): (c: Client)
    ensures !c.session.isAuthenticated && c.session.user.None? && c.session.token.None?
    ensures c.browser == browser
  {
    Client(SignedOut, browser)
  }

  /** `decodedToken.exp && decodedToken.exp < Date.now() / 1000`: the expiry claim is truthy (present and
      not 0) and strictly before the current time, read in milliseconds and divided as a real number. In
      whole milliseconds: a token is accepted up to and including the millisecond `exp * 1000`. */
  function Expired(exp: Option<int>, nowMs: int): (expired: bool)
    ensures expired <==> exp.Some? && exp.value != 0 && exp.value * 1000 < nowMs
  {
    if exp.Some? then
      var e := exp.value as real;
      var n := nowMs as real;
      assert e < n / 1000.0 <==> e * 1000.0 < n;
      assert (exp.value * 1000) as real == e * 1000.0;
      exp.value != 0 && e < n / 1000.0
    else false
  }

  /** `logout()`: clears the header and the stored token (twice over, as the code does), then the state. */
  function Logout(c: Client): (r: Client)
    ensures r.session == SignedOut
    ensures r.browser.storedToken.None? && r.browser.authHeader.None?
  {
    var b := AuthApi.SetAuthToken(c.browser, None);
    Client(SignedOut, b.(storedToken := None))
  }

  /** `setAuth(token, user)`: the user is stored as given, not decoded from the token. */
  function SetAuth(c: Client, token: string, user: User): (r: Client)
    ensures r.session.isAuthenticated && r.session.user == Some(user) && r.session.token == Some(token)
    ensures token != "" ==> r.browser.storedToken == Some(token) && r.browser.authHeader == Some(AuthApi.Bearer(token))
    ensures token == "" ==> r.browser.storedToken.None? && r.browser.authHeader.None?
  {
    Client(Session(Some(user), Some(token), true), AuthApi.SetAuthToken(c.browser, Some(token)))
  }

  /** The restore effect. `decode` stands for `jwtDecode` (None when it throws); `nowMs` for `Date.now()`. */
  function Restore(c: Client, decode: string -> Option<Claims>, nowMs: int): (r: Client)
    ensures !Truthy(c.browser.storedToken) ==> r == c
    ensures Truthy(c.browser.storedToken) ==>
              var saved := c.browser.storedToken.value;
              if decode(saved).None? || Expired(decode(saved).value.exp, nowMs) then
                r == Logout(c)
              else
                var claims := decode(saved).value;
                && r.session == Session(Some(User(claims.id, claims.name, claims.sub)), Some(saved), true)
                && r.browser == AuthApi.Browser(Some(saved), Some(AuthApi.Bearer(saved)))
  {
    if !Truthy(c.browser.storedToken) then c
    else
      var saved := c.browser.storedToken.value;
      match decode(saved)
      case None => Logout(c)
      case Some(claims) =>
        if Expired(claims.exp, nowMs) then Logout(c)
        else
          var b := AuthApi.SetAuthToken(c.browser, Some(saved));
          Client(Session(Some(User(claims.id, claims.name, claims.sub)), Some(saved), true), b)
  }

  /** Memory and storage agree: the flag, the token and the user are set together, and a held token is the
      stored one, carried by the header. */
  predicate Coherent(c: Client) {
    && (c.session.isAuthenticated <==> c.session.token.Some?)
    && (c.session.isAuthenticated <==> c.session.user.Some?)
    && AuthApi.HeaderMatchesStorage(c.browser)
    && (c.session.token.Some? ==> c.browser.storedToken == c.session.token)
  }

  /** Restoring from a truthy stored token leaves a coherent client whatever the header and the session
      held before, signed in exactly when the token decodes and has not expired; an absent or empty stored
      token leaves the client as it was, so a coherent client stays coherent. */
  lemma RestoreCoherent(c: Client, decode: string -> Option<Claims>, nowMs: int)
    requires Truthy(c.browser.storedToken) || Coherent(c)
    ensures Coherent(Restore(c, decode, nowMs))
    ensures Restore(c, decode, nowMs).session.isAuthenticated <==>
              if Truthy(c.browser.storedToken) then
                && decode(c.browser.storedToken.value).Some?
                && !Expired(decode(c.browser.storedToken.value).value.exp, nowMs)
              else c.session.isAuthenticated
  {
  }

  /** A restored session on a page load, where the freshly created HTTP instance has no `Authorization`
      header yet: signed in exactly when a stored token decodes and is unexpired, and then the user is
      rebuilt from the `id`, `name` and `sub` claims. Memory and storage agree afterwards unless the
      stored token is the empty string, which restore leaves in storage without a header. */
  lemma RestoreAfterMount(b: AuthApi.Browser, decode: string -> Option<Claims>, nowMs: int)
    requires b.authHeader.None?
    ensures var r := Restore(Mount(b), decode, nowMs);
            && (b.storedToken != Some("") ==> Coherent(r))
            && (r.session.isAuthenticated <==>
                  Truthy(b.storedToken) && decode(b.storedToken.value).Some?
                  && !Expired(decode(b.storedToken.value).value.exp, nowMs))
            && (r.session.isAuthenticated ==>
                  r.session.user.value.email == decode(b.storedToken.value).value.sub)
            && (!r.session.isAuthenticated && Truthy(b.storedToken) ==> r.browser.storedToken.None?)
  {
    if b.storedToken != Some("") {
      RestoreCoherent(Mount(b), decode, nowMs);
    }
  }

  /** A token without `exp`, or whose `exp * 1000` is exactly the current millisecond, or with the falsy
      `exp` 0, is accepted. */
  lemma RestoreAcceptsBoundaryExpiry(saved: string, claims: Claims, nowMs: int)
    requires saved != ""
    requires claims.exp.None? || claims.exp.value * 1000 == nowMs || claims.exp.value == 0
    ensures Restore(Mount(AuthApi.Browser(Some(saved), None)), _ => Some(claims), nowMs).session.isAuthenticated
  {
  }

  /** The gateway's `isAuthenticated()` looks at storage alone: a stored but expired token counts as signed in
      there until the provider's restore signs the client out and removes it. */
  lemma StoredExpiredTokenCountsUntilRestore(saved: string, claims: Claims, nowMs: int)
    requires saved != "" && Expired(claims.exp, nowMs)
    ensures AuthApi.IsAuthenticated(AuthApi.Browser(Some(saved), None))
    ensures var r := Restore(Mount(AuthApi.Browser(Some(saved), None)), _ => Some(claims), nowMs);
            !r.session.isAuthenticated && !AuthApi.IsAuthenticated(r.browser)
  {
  }

  /** Logging out twice is logging out once. */
  lemma LogoutIdempotent(c: Client)
    ensures Logout(Logout(c)) == Logout(c)
    ensures Coherent(Logout(c))
  {
  }

  /** `setAuth` with a non-empty token leaves a coherent client. */
  lemma SetAuthCoherent(c: Client, token: string, user: User)
    requires token != ""
    ensures Coherent(SetAuth(c, token, user))
  {
  }

  /** `setAuth` with an empty token splits memory from storage: the session says signed in while nothing is
      stored, so the ride gateway sends no credential. */
  lemma SetAuthEmptyTokenDiverges(c: Client, user: User)
    ensures SetAuth(c, "", user).session.isAuthenticated
    ensures !AuthApi.IsAuthenticated(SetAuth(c, "", user).browser)
    ensures !Coherent(SetAuth(c, "", user))
  {
  }

  /** The events a mounted provider reacts to after its restore effect has run. */
  datatype Event = SetAuthEvent(token: string, user: User) | LogoutEvent

  /** Applies a sequence of events in order. */
  function Run(c: Client, events: seq<Event>): Client
    decreases |events|
  {
    if events == [] then c
    else
      var next := match events[0]
        case SetAuthEvent(t, u) => SetAuth(c, t, u)
        case LogoutEvent => Logout(c);
      Run(next, events[1..])
  }

  /** Until a logout, nothing signs the client out: a run without `LogoutEvent` ends signed in if it started
      signed in or held any `setAuth`, and the last `setAuth` decides the user and token, since `setAuth`
      overwrites them whatever the state. That no amount of time signs the client out is a fact of the event
      set rather than of this proof: after restore the provider has no event that looks at the clock. */
  lemma {:induction false} SignedInUntilLogout(c: Client, events: seq<Event>)
    requires forall i :: 0 <= i < |events| ==> !events[i].LogoutEvent?
    ensures c.session.isAuthenticated || events != [] ==> Run(c, events).session.isAuthenticated
    ensures events != [] ==>
              var last := events[|events| - 1];
              Run(c, events).session.user == Some(last.user) && Run(c, events).session.token == Some(last.token)
    decreases |events|
  {
    if events != [] {
      var next := SetAuth(c, events[0].token, events[0].user);
      assert Run(c, events) == Run(next, events[1..]);
      SignedInUntilLogout(next, events[1..]);
      if |events| > 1 {
        assert events[1..][|events[1..]| - 1] == events[|events| - 1];
      }
    }
  }

  /** Every event keeps the client coherent as long as the tokens handed to `setAuth` are non-empty. */
  lemma {:induction false} RunCoherent(c: Client, events: seq<Event>)
    requires Coherent(c)
    requires forall i :: 0 <= i < |events| ==> events[i].SetAuthEvent? ==> events[i].token != ""
    ensures Coherent(Run(c, events))
    decreases |events|
  {
    if events != [] {
      var next := match events[0]
        case SetAuthEvent(t, u) => SetAuth(c, t, u)
        case LogoutEvent => Logout(c);
      assert Run(c, events) == Run(next, events[1..]);
      RunCoherent(next, events[1..]);
    }
  }

  /** A coherent signed-in client sends `Bearer <token>` with every ride request; a signed-out one sends
      the request untouched. */
  lemma RideRequestsCarrySessionToken(c: Client, config: RideApi.RequestConfig)
    requires Coherent(c)
    ensures c.session.isAuthenticated && c.session.token.value != "" ==>
              RideApi.Intercept(c.browser.storedToken, config).headers[RideApi.Authorization]
                == AuthApi.Bearer(c.session.token.value)
    ensures !c.session.isAuthenticated && c.browser.storedToken.None? ==>
              RideApi.Intercept(c.browser.storedToken, config) == config
  {
  }
}

=== FILE: signup_page.dfy ===
/** The signup page (project/src/pages/Signup.tsx): the per-field rules the form library enforces before
    submitting, and the submit handler that calls the gateway and hands the result to the session. */
module SignupPage {
  import opened Wrappers
  import opened Text
  import opened Domain
  import opened Gateway
  import AuthApi
  import Session

  // ---------------------------------------------------------------------------------------------
  // The email pattern /^[A-Z0-9._%+-]+@[A-Z0-9.-]+\.[A-Z]{2,}$/i

  /** `[A-Z]` under the `i` flag without `u`: exactly the ASCII letters of either case. */
  predicate IsLetter(c: char) {
    'A' <= c <= 'Z' || 'a' <= c <= 'z'
  }

  predicate IsDigit(c: char) {
    '0' <= c <= '9'
  }

  /** `[A-Z0-9._%+-]`, the local part. */
  predicate IsLocalChar(c: char) {
    IsLetter(c) || IsDigit(c) || c == '.' || c == '_' || c == '%' || c == '+' || c == '-'
  }

  /** `[A-Z0-9.-]`, the domain. */
  predicate IsDomainChar(c: char) {
    IsLetter(c) || IsDigit(c) || c == '.' || c == '-'
  }

  /** `s` splits as local part, `@` at `at`, domain, `.` at `dot`, and a top-level domain of two or more
      letters: one way the pattern can match. */
  predicate SplitsAt(s: string, at: int, dot: int) {
    && 0 < at && at + 1 < dot && dot + 2 < |s|
    && s[at] == '@' && s[dot] == '.'
    && All(s[..at], IsLocalChar)
    && All(s[at + 1..dot], IsDomainChar)
    && All(s[dot + 1..], IsLetter)
  }

  /** The pattern matches `s`: some split of `s` fits it. */
  ghost predicate MatchesPattern(s: string) {
    exists at: int, dot: int :: SplitsAt(s, at, dot)
  }

  /** The index of the first `c` in `s`, or `|s|` when there is none. */
  function FirstIndex(s: string, c: char): (i: nat)
    ensures i <= |s| && (i < |s| ==> s[i] == c)
    ensures forall j :: 0 <= j < i ==> s[j] != c
  {
    if s == [] then 0
    else if s[0] == c then 0
    else 1 + FirstIndex(s[1..], c)
  }

  /** The index of the last `c` in `s`, or -1 when there is none. */
  function LastIndex(s: string, c: char): (i: int)
    ensures -1 <= i < |s| && (i >= 0 ==> s[i] == c)
    ensures forall j :: i < j < |s| ==> s[j] != c
    decreases |s|
  {
    if s == [] then -1
    else if s[|s| - 1] == c then |s| - 1
    else LastIndex(s[..|s| - 1], c)
  }

  /** The matcher: neither character class admits `@`, and the top-level domain admits no `.`, so the only
      split worth trying is at the first `@` and the last `.`. */
  predicate IsEmail(s: string) {
    SplitsAt(s, FirstIndex(s, '@'), LastIndex(s, '.'))
  }

  /** The matcher accepts exactly the strings the pattern matches. */
  lemma IsEmailIffMatches(s: string)
    ensures IsEmail(s) <==> MatchesPattern(s)
  {
    if MatchesPattern(s) {
      var at: int, dot: int :| SplitsAt(s, at, dot);
      var a := FirstIndex(s, '@');
      var d := LastIndex(s, '.');
      assert a == at;
      assert d == dot;
    }
  }

  /** A non-empty string without `@` is refused as an invalid address. */
  lemma EmailNeedsAt(s: string)
    requires s != "" && '@' !in s
    ensures !MatchesPattern(s)
    ensures EmailError(s) == Some("Invalid email address")
  {
    IsEmailIffMatches(s);
    assert FirstIndex(s, '@') == |s|;
  }

  /** Concrete witnesses: an ordinary address matches, an address with a one-letter top-level domain or
      without a local part does not. */
  lemma EmailExamples()
    ensures IsEmail("a@b.com")
    ensures !IsEmail("a@b.c")
    ensures !IsEmail("@b.com")
  {
    assert FirstIndex("a@b.com", '@') == 1;
    assert "a@b.com"[3] == '.';
    assert LastIndex("a@b.com", '.') == 3;
    assert "a@b.com"[..1] == "a";
    assert "a@b.com"[2..3] == "b";
    assert "a@b.com"[4..] == "com";
  }

  // ---------------------------------------------------------------------------------------------
  // Field rules (a `required` rule fails only on the empty string; length and pattern rules are checked
  // only on non-empty values, after `required`)

  function NameError(v: string): (e: Option<string>)
    ensures e.None? <==> v != "" && |v| >= 2
    ensures e == Some("Name is required") <==> v == ""
    ensures e.Some? && v != "" ==> e == Some("Name must be at least 2 characters")
  {
    if v == "" then Some("Name is required")
    else if |v| < 2 then Some("Name must be at least 2 characters")
    else None
  }

  function EmailError(v: string): (e: Option<string>)
    ensures e.None? <==> v != "" && MatchesPattern(v)
    ensures e == Some("Email is required") <==> v == ""
    ensures e.Some? && v != "" ==> e == Some("Invalid email address")
  {
    IsEmailIffMatches(v);
    if v == "" then Some("Email is required")
    else if !IsEmail(v) then Some("Invalid email address")
    else None
  }

  function PasswordError(v: string): (e: Option<string>)
    ensures e.None? <==> v != "" && |v| >= 6
    ensures e == Some("Password is required") <==> v == ""
    ensures e.Some? && v != "" ==> e == Some("Password must be at least 6 characters")
  {
    if v == "" then Some("Password is required")
    else if |v| < 6 then Some("Password must be at least 6 characters")
    else None
  }

  datatype FieldErrors = FieldErrors(name: Option<string>, email: Option<string>, password: Option<string>) {
    predicate Clean() {
      name.None? && email.None? && password.None?
    }
  }

  function Validate(d: SignupData): FieldErrors {
    FieldErrors(NameError(d.name), EmailError(d.email), PasswordError(d.password))
  }

  // ---------------------------------------------------------------------------------------------
  // Submission

  /** The page's state: the loading flag, the banner error, and the field errors on display. */
  datatype Page = Page(isLoading: bool, error: Option<string>, fieldErrors: FieldErrors)

  const Blank: Page := Page(false, None, FieldErrors(None, None, None))

  datatype Effect =
    | SignupCalled(data: SignupData)
    | SuccessToast(message: string)
    | ErrorToast(message: string)
    | NavigateTo(path: string)

  datatype Step = Step(page: Page, client: Session.Client, effects: seq<Effect>)

  /** The form's submit: invalid fields are shown and nothing is sent; otherwise `onSubmit` starts loading,
      clears the previous error and calls the gateway once with the data as entered. */
  function Submit(p: Page, c: Session.Client, d: SignupData): (s: Step)
    ensures s.client == c
    ensures (s.effects == [SignupCalled(d)]) <==> Validate(d).Clean()
    ensures Validate(d).Clean() ==> s.page.isLoading && s.page.error.None?
    ensures !Validate(d).Clean() ==> s.effects == [] && s.page == p.(fieldErrors := Validate(d))
  {
    var errors := Validate(d);
    if !errors.Clean() then Step(p.(fieldErrors := errors), c, [])
    else Step(Page(true, None, errors), c, [SignupCalled(d)])
  }

  /** The message `onSubmit` shows for a thrown value. */
  function Describe(t: Thrown): string {
    match t
    case ErrorObject(m) => m
    case OtherValue => "Failed to sign up"
  }

  /** The gateway call settles: on success the session receives exactly the response's token and user and the
      page navigates to `/`; on failure the message is shown and the session is untouched. Loading ends
      either way. */
  function Settle(p: Page, c: Session.Client, reply: Reply<AuthResponse>): (s: Step)
    ensures !s.page.isLoading
    ensures reply.Replied? ==>
              && s.client == Session.SetAuth(c, reply.data.token, reply.data.user)
              && NavigateTo("/") in s.effects
    ensures reply.Failed? ==>
              && s.client == c
              && s.page.error.Some?
              && s.effects == [ErrorToast(s.page.error.value)]
    ensures reply.Failed? && reply.failure.HttpFailure? ==>
              s.page.error == Some(ErrorThenMessage(reply.failure.body, "Failed to sign up")) && s.page.error.value != ""
    ensures reply.Failed? && reply.failure.NotHttp? && reply.failure.thrown.ErrorObject? ==>
              s.page.error == Some(reply.failure.thrown.message)
    ensures reply.Failed? && reply.failure.NotHttp? && reply.failure.thrown.OtherValue? ==>
              s.page.error == Some("Failed to sign up")
  {
    match AuthApi.Signup(reply)
    case Ok(response) =>
      Step(p.(isLoading := false), Session.SetAuth(c, response.token, response.user),
           [SuccessToast("Successfully signed up!"), NavigateTo("/")])
    case Err(thrown) =>
      var message := Describe(thrown);
      Step(p.(isLoading := false, error := Some(message)), c, [ErrorToast(message)])
  }

  /** A thrown value that is not an `Error` is reported with the generic message. */
  lemma NonErrorThrowReported(p: Page, c: Session.Client)
    ensures Settle(p, c, Failed(NotHttp(OtherValue))).page.error == Some("Failed to sign up")
  {
  }
}

=== FILE: text.dfy ===
/** String helpers the client (TypeScript) and the server (Java) rely on: trimming, blankness,
    ASCII lower-casing and JavaScript string truthiness. */
module Text {
  import opened Wrappers

  /** WhiteSpace and LineTerminator code points of ECMAScript (sections 12.2 and 12.3 of ECMA-262):
      the characters `String.prototype.trim` removes. */
  predicate IsJsSpace(c: char) {
    || c == '\t' || c == '\U{000B}' || c == '\U{000C}' || c == ' ' || c == '\U{00A0}' || c == '\U{FEFF}'
    || c == '\U{1680}' || ('\U{2000}' <= c <= '\U{200A}') || c == '\U{202F}' || c == '\U{205F}' || c == '\U{3000}'
    || c == '\n' || c == '\r' || c == '\U{2028}' || c == '\U{2029}'
  }

  /** The characters Java's `String.trim` removes: every code point up to and including U+0020. */
  predicate IsJavaSpace(c: char) {
    c <= ' '
  }

  /** Every character of `s` satisfies `p` (vacuously true of the empty string). */
  predicate All(s: string, p: char -> bool) {
    forall i :: 0 <= i < |s| ==> p(s[i])
  }

  /** Drops the longest prefix of `s` made of characters satisfying `drop`. */
  function TrimStart(s: string, drop: char -> bool): (r: string)
    ensures |r| <= |s| && r == s[|s| - |r|..]
    ensures forall i :: 0 <= i < |s| - |r| ==> drop(s[i])
    ensures r == [] || !drop(r[0])
    decreases |s|
  {
    if |s| > 0 && drop(s[0]) then
      TrimStart(s[1..], drop)
    else s
  }

  /** Drops the longest suffix of `s` made of characters satisfying `drop`. */
  function TrimEnd(s: string, drop: char -> bool): (r: string)
    ensures |r| <= |s| && r == s[..|r|]
    ensures forall i :: |r| <= i < |s| ==> drop(s[i])
    ensures r == [] || !drop(r[|r| - 1])
    decreases |s|
  {
    if |s| > 0 && drop(s[|s| - 1]) then
      TrimEnd(s[..|s| - 1], drop)
    else s
  }

  /** Both ends trimmed. */
  function Trim(s: string, drop: char -> bool): string {
    TrimEnd(TrimStart(s, drop), drop)
  }

  /** `s.trim()` in JavaScript. */
  function JsTrim(s: string): string {
    Trim(s, IsJsSpace)
  }

  /** `s.trim()` in Java. */
  function JavaTrim(s: string): string {
    Trim(s, IsJavaSpace)
  }

  /** Trimming the start yields the empty string exactly when every character is trimmable. */
  lemma TrimStartEmptyIffAll(s: string, drop: char -> bool)
    ensures TrimStart(s, drop) == [] <==> All(s, drop)
  {
    var a := TrimStart(s, drop);
    if a != [] {
      assert a[0] == s[|s| - |a|];
    }
  }

  /** Trimming yields the empty string exactly when every character is trimmable. */
  lemma TrimEmptyIffAll(s: string, drop: char -> bool)
    ensures Trim(s, drop) == [] <==> All(s, drop)
  {
    TrimStartEmptyIffAll(s, drop);
    var a := TrimStart(s, drop);
    assert TrimEnd(a, drop) == [] ==> All(a, drop);
  }

  /** Trimming an already trimmed string changes nothing. */
  lemma TrimIdempotent(s: string, drop: char -> bool)
    ensures Trim(Trim(s, drop), drop) == Trim(s, drop)
  {
    var t := Trim(s, drop);
    if t != [] {
      var a := TrimStart(s, drop);
      assert t[0] == a[0];
      assert TrimStart(t, drop) == t;
      assert TrimEnd(t, drop) == t;
    }
  }

  /** `!s.trim()` in JavaScript: the string is empty or made only of white space. */
  predicate IsBlank(s: string) {
    All(s, IsJsSpace)
  }

  /** The blank test used by the booking form agrees with JavaScript's `!s.trim()`. */
  lemma JsTrimEmptyIffBlank(s: string)
    ensures JsTrim(s) == "" <==> IsBlank(s)
  {
    TrimEmptyIffAll(s, IsJsSpace);
  }

  /** Java's `s.trim().isEmpty()`. */
  predicate IsJavaBlank(s: string) {
    All(s, IsJavaSpace)
  }

  /** Lower-cases the ASCII letters A-Z and leaves every other character alone. */
  function LowerChar(c: char): char {
    if 'A' <= c <= 'Z' then (c as int + 32) as char else c
  }

  /** `s.toLowerCase()` restricted to ASCII letters. */
  function AsciiLower(s: string): string {
    seq(|s|, i requires 0 <= i < |s| => LowerChar(s[i]))
  }

  /** A character lower-casing leaves alone. */
  predicate IsLowered(c: char) {
    LowerChar(c) == c
  }

  /** Lower-casing produces a string that lower-casing leaves alone, and leaves alone exactly such
      strings. */
  lemma AsciiLowerFixesLowered(s: string)
    ensures All(AsciiLower(s), IsLowered)
    ensures AsciiLower(s) == s <==> All(s, IsLowered)
  {
    var r := AsciiLower(s);
    forall i | 0 <= i < |r|
      ensures IsLowered(r[i])
    {
      assert r[i] == LowerChar(s[i]);
    }
    if All(s, IsLowered) {
      assert forall i :: 0 <= i < |s| ==> r[i] == s[i];
    }
  }

  /** A property every character of `s` has, every character of a slice of `s` has. */
  lemma AllSlice(s: string, p: char -> bool, i: nat, j: nat)
    requires All(s, p) && i <= j <= |s|
    ensures All(s[i..j], p)
  {
    forall k | 0 <= k < j - i
      ensures p(s[i..j][k])
    {
      assert s[i..j][k] == s[i + k];
    }
  }

  /** A property every character of `s` has survives trimming, since the trimmed string is a slice of `s`. */
  lemma TrimKeepsAll(s: string, drop: char -> bool, p: char -> bool)
    requires All(s, p)
    ensures All(Trim(s, drop), p)
  {
    var a := TrimStart(s, drop);
    AllSlice(s, p, |s| - |a|, |s|);
    var t := TrimEnd(a, drop);
    AllSlice(a, p, 0, |t|);
  }

  /** JavaScript truthiness of a `string | null`: present and non-empty. */
  predicate Truthy(s: Option<string>) {
    s.Some? && s.value != ""
  }
}

=== FILE: wrappers.dfy ===
/** Optional values and success/failure results shared by every module of the model. */
module Wrappers {

  /** A value that may be absent: TypeScript's `T | null`, Java's `Optional<T>` or a nullable field. */
  datatype Option<+T> = None | Some(value: T)

  /** The outcome of an operation that either returns a value or throws. */
  datatype Result<+T, +E> = Ok(value: T) | Err(error: E)
}
